=== FILE: README.md ===
# AR demo catalog: capability gates, readiness pollers and page state

This project models, in Dafny, the decision logic of a Next.js catalog of browser AR demo
pages. The model covers the parts that become deterministic once the browser is
abstracted into an input record:

- **Capability gates.** Three pages check the environment in a fixed order and stop at the
  first failure:
  - the three.js marker layout (`checkCompatibility`);
  - the A-Frame scene-objects layout (`checkDeviceCompatibility`);
  - the ARCore page (`checkARSupport`).

  All three are built from one ordered-check chain (`Gate.FirstFailure`) over an immutable
  `Environment.Env` record. Regular-expression tests on the user agent become substring
  predicates (`Text.Contains`). The `/…/i` tests also fold ASCII case first. This is exact
  because the patterns are ASCII, and JavaScript's `i` flag never maps a non-ASCII
  character to an ASCII one.
- **Bounded readiness pollers.** `three-ar-scene.tsx` and `ar-scene.tsx` poll for
  `THREEx.ArToolkitSource`. Each poll is a function over the sequence of observations, one
  per sample (`Poller.Poll`). `ar-scene.tsx` falls back to a sequential two-script load
  (`ArScene.Fallback`).
- **Scene initialisation report.** The ordered `initAR` steps end in `onLoad` or
  `onError(message || default)` (`SceneInit.Report`, `SceneInit.RunEffect`).
- **Marker page session machine.** The page moves through `ready | loading | running |
  error`, with retry and one panel per status (`MarkerPage`).
- **Marker layout lifecycle.** The layout's interval, timeout, orientation listeners and
  teardown form an event-driven state (`MarkerLayout.Step`).
- **Face try-on toggles.** Five accessory flags flip one click at a time, and the
  AFRAME/MINDAR readiness interval gates the set-up (`TryOnPage`).

Timers are modelled as indexed samples or events, not wall-clock time. The camera, WebXR,
script elements and thrown values become abstract inputs: `CameraOutcome`, `SessionQuery`,
`ScriptEvent` and `Js.Thrown`.

## Model

| member | source | states |
|---|---|---|
| `Js.MessageOr` | src/components/ar-scene.tsx:190 | `error.message` or-else `default`: the message when it is a non-empty string, the default otherwise; the result is non-empty when the default is |
| `Js.MessageReadingsDiffer` | src/app/ar-cases/examples/ARCore/scene-objects/page.tsx:61 | the `instanceof Error` reading and the or-else reading differ exactly on an `Error` with an empty message |
| `Text.Includes` | src/app/ar-cases/examples/threejs/marker/basic/layout.tsx:21 | the left-to-right window scan of `includes` answers true iff the word occurs somewhere in the string |
| `Text.IncludesIgnoringCase` | src/app/ar-cases/examples/ARCore/scene-objects/page.tsx:26 | folding both strings and scanning answers true iff the regular expression's own rule matches: at some offset every pattern character equals the subject character once both are canonicalised |
| `Text.FoldingDecidesRegex` | src/app/ar-cases/examples/ARCore/scene-objects/page.tsx:26-32 | for all strings, a lower-case-folded occurrence exists iff the `/word/i` per-character canonicalised match exists |
| `Text.ContainsImpliesIgnoringCase` | src/app/ar-cases/examples/ARCore/scene-objects/page.tsx:32 | every exact occurrence is also a case-insensitive one |
| `Gate.FirstFailure` | src/app/ar-cases/examples/threejs/marker/basic/layout.tsx:16-37 | an ordered check chain passes iff every check passes; on failure it reports the message of a check that fails after only passing ones |
| `Gate.FirstFailureAt` | src/app/ar-cases/examples/aframe/scene-objects/layout.tsx:28-48 | the first failing check decides the message, whatever the later checks say |
| `Gate.PrefixDecides` | src/app/ar-cases/examples/ARCore/scene-objects/page.tsx:17-56 | checks after the first failure are never consulted: replacing them leaves the verdict unchanged |
| `Environment.GetDeviceInfo` | src/components/three-ar-scene.tsx:18-31 | the scanned flags agree with the substring definitions of iOS (no `MSStream`), Android, mobile and low-end |
| `Environment.LowEndIsMobile` | src/components/three-ar-scene.tsx:23 | low-end implies mobile; with `hardwareConcurrency` absent or zero (read as 4), a device is low-end iff it is mobile |
| `Environment.MsStreamIsNotIOS` | src/components/three-ar-scene.tsx:20 | with `MSStream` set no user agent is iOS, so mobile means Android |
| `Poller.PollFrom` | src/components/three-ar-scene.tsx:48-60 | each `check()` counts and then samples; it resolves at the first positive sample within the limit, otherwise it reports exhaustion after exactly the limit |
| `Poller.Poll` | src/components/three-ar-scene.tsx:43-64 | the poll result meets the reference specification: first positive sample or full exhaustion |
| `Poller.SampleBound` | src/components/three-ar-scene.tsx:55-56 | never more samples than the limit; exhaustion after exactly the limit |
| `Poller.LastSampleStillResolves` | src/components/three-ar-scene.tsx:52-56 | a global first seen on the last permitted sample still resolves, because the readiness test precedes the limit test |
| `Poller.LaterSamplesIgnored` | src/components/three-ar-scene.tsx:55-58 | observations after the limit never influence the result |
| `Poller.SettlesInTime` | src/components/ar-scene.tsx:61 | with samples one interval apart, the poll settles within (limit - 1) intervals of the first sample, derived from the exact settle times |
| `Poller.SettleTimeExact` | src/components/ar-scene.tsx:29-61 | a global first seen by sample j + 1 resolves the poll after exactly j intervals; a global never seen makes it give up after exactly (limit - 1) intervals |
| `SceneInit.Report` | src/components/ar-scene.tsx:187-191 | `onLoad` iff every step completed; otherwise the message of the first step that threw, read as the message or-else the default, which is never empty |
| `SceneInit.ReportAt` | src/components/three-ar-scene.tsx:270-273 | the first throwing step decides the `onError` message |
| `SceneInit.EffectReports` | src/components/ar-scene.tsx:22 | the effect does nothing without a container or once initialised; otherwise it reports once, `onLoad` iff all steps completed, and sets `sceneInitialized` together with `onLoad` only |
| `SceneInit.CleanupReachesReact` | src/components/ar-scene.tsx:22-194 | over every guard outcome and step trace, `initAR` resolves to the cleanup closure iff the guard let the effect through and every step completed; as written, the callback ending in `initAR();` hands React nothing in every case |
| `SceneInit.ReactUnmount` | src/components/ar-scene.tsx:179-187 | unmounting removes the listener exactly when the effect returned the cleanup, and leaves the report and `sceneInitialized` alone |
| `SceneInit.UnmountAsWritten` | src/components/ar-scene.tsx:179-194 | as written, unmounting never removes the `resize` listener |
| `SceneInit.ListenerLeaksAsWritten` | src/components/ar-scene.tsx:179-194 | a fully successful mount followed by unmount leaves the listener on `window` |
| `SceneInit.Unmount` | src/components/ar-scene.tsx:179-191 | with `initAR`'s closure handed to React, a listener survives unmount exactly when it was added and the run did not reach `onLoad`; the report is kept |
| `SceneInit.NoListenerAfterUnmount` | src/components/three-ar-scene.tsx:261-273 | with the closure handed to React, no mount that reported `onLoad` leaves a listener, and one survives exactly when a step after `addEventListener` threw |
| `ThreeArScene.CheckArjsOutcome` | src/components/three-ar-scene.tsx:43-64 | `checkARJS` resolves iff one of the first 20 samples sees the toolkit; otherwise it rejects with the THREEx-undefined error after exactly 20 samples |
| `ThreeArScene.RendererSettings` | src/components/three-ar-scene.tsx:18-112 | the options and pixel ratio follow `getDeviceInfo`'s user-agent classification: a mobile agent gets FOV 60, no antialiasing and a ratio of at most 2; any other agent gets FOV 45, antialiasing and the device ratio |
| `ThreeArScene.PixelRatio` | src/components/three-ar-scene.tsx:108-112 | mobile uses the device ratio up to 2 and exactly 2 above it; desktop uses the device ratio |
| `ThreeArScene.MobileParamsAreLighter` | src/components/three-ar-scene.tsx:94-202 | mobile gets FOV 60, no antialiasing, detection rate 30, pattern ratio 0.65, no image smoothing, smoothCount 3, tolerance 0.02, threshold 3; desktop gets 45, antialiasing, 60, 0.5, image smoothing, 5, 0.01, 2 |
| `ThreeArScene.MountReports` | src/components/three-ar-scene.tsx:83-273 | `onLoad`, with `sceneInitialized`, comes last exactly when the poll, THREEx check, renderer and source creation, source init, construction and first resize succeed; a failed poll reports only the THREEx-undefined error; a non-`Error` source failure reports the prefix followed by `undefined` |
| `ThreeArScene.FrameErrorThenLoad` | src/components/three-ar-scene.tsx:235-258 | a failing first frame on a ready source makes the parent see `onError` followed by `onLoad` |
| `ThreeArScene.InitializedSceneIsInert` | src/components/three-ar-scene.tsx:38 | re-running the effect after a successful mount invokes no callback |
| `ArScene.PollPhase` | src/components/ar-scene.tsx:27-36 | a toolkit seen within 20 samples resolves at the first positive sample and appends no script; otherwise 20 samples are taken and the fallback runs |
| `ArScene.FallbackOrder` | src/components/ar-scene.tsx:37-59 | three.js is always appended first; AR.js is appended iff the poll was exhausted and three.js loaded; the list is then exactly three.js and AR.js, and otherwise at most three.js alone, which is all a three.js error leaves |
| `ArScene.FallbackOutcome` | src/components/ar-scene.tsx:45-58 | a three.js error rejects with the Three.js message; an AR.js error rejects with the AR.js message; after both load the promise resolves iff the toolkit is defined, else rejects with the THREEx-undefined message |
| `ArScene.MountReports` | src/components/ar-scene.tsx:62-191 | `onLoad` iff every step (poll, THREEx check, renderer and source creation, source init, construction, first resize, and the first frame, which has no `try`) completed; a three.js fallback failure reaches the parent as the Three.js message; messages are non-empty |
| `MarkerLayout.CheckCompatibility` | src/app/ar-cases/examples/threejs/marker/basic/layout.tsx:16-37 | passes iff none of iOS-without-Safari, Android-without-Chrome, narrow mobile holds; each holding condition yields its own message only when the earlier ones do not hold |
| `MarkerLayout.FailureImplications` | src/app/ar-cases/examples/threejs/marker/basic/layout.tsx:26-34 | the Android message implies the iOS check passed; the landscape message implies a mobile UA narrower than 480; a desktop UA always passes |
| `MarkerLayout.MountInstallsAllOrNothing` | src/app/ar-cases/examples/threejs/marker/basic/layout.tsx:39-66 | a failed check installs no interval, timeout or listener, a passed one installs all four; the error is empty iff the check passed |
| `MarkerLayout.NothingPendingIsInert` | src/app/ar-cases/examples/threejs/marker/basic/layout.tsx:39-76 | a layout with no timer or listener installed ignores every sequence of events |
| `MarkerLayout.FailedMountIsFinal` | src/app/ar-cases/examples/threejs/marker/basic/layout.tsx:39 | after a failed check no later event changes the layout |
| `MarkerLayout.TeardownSilencesEverything` | src/app/ar-cases/examples/threejs/marker/basic/layout.tsx:68-73 | teardown clears both timers and both listeners, after which no event has any effect |
| `MarkerLayout.TimeoutBehaviour` | src/app/ar-cases/examples/threejs/marker/basic/layout.tsx:48-54 | the timeout clears the interval, sets the timeout message only if the toolkit is absent, and later ticks do nothing |
| `MarkerLayout.OrientationSetsOrClears` | src/app/ar-cases/examples/threejs/marker/basic/layout.tsx:57-66 | both listeners set the landscape message iff width < height, and otherwise clear any earlier message; they leave the timers, the listeners and the loaded flag alone |
| `MarkerLayout.PendingOnlyShrinks` | src/app/ar-cases/examples/threejs/marker/basic/layout.tsx:48-73 | no event after mount installs a timer or listener |
| `MarkerLayout.TimeoutOverlayAndResize` | src/app/ar-cases/examples/threejs/marker/basic/layout.tsx:97-103 | the loading hint and the error overlay never show together; a landscape resize after the timeout message erases it and the hint returns |
| `SceneObjectsLayout.CheckDevice` | src/app/ar-cases/examples/aframe/scene-objects/layout.tsx:20-48 | passes iff the browser checks, media-devices check and secure-context check all pass |
| `SceneObjectsLayout.CheckOrder` | src/app/ar-cases/examples/aframe/scene-objects/layout.tsx:28-48 | order iOS-Safari, Android-Chrome, media devices, HTTPS: each message appears exactly when its check is the first to fail |
| `SceneObjectsLayout.SecureContextExactly` | src/app/ar-cases/examples/aframe/scene-objects/layout.tsx:45 | once the earlier checks pass, the gate passes iff protocol is `https:` or hostname is `localhost` |
| `SceneObjectsLayout.StopAll` | src/app/ar-cases/examples/aframe/scene-objects/layout.tsx:59 | every track of the probe stream is stopped, none lost or reordered |
| `SceneObjectsLayout.CameraSettled` | src/app/ar-cases/examples/aframe/scene-objects/layout.tsx:58-64 | only a pending request reacts to the camera's answer, which settles it; a probe that was never requested or already settled is left as it is |
| `SceneObjectsLayout.CameraProbe` | src/app/ar-cases/examples/aframe/scene-objects/layout.tsx:51-64 | the camera is requested, and left pending, iff all four checks passed; a grant stops every track and clears the error; a rejection sets the camera message; a failed check sets its message and gets no answer |
| `SceneObjectsLayout.SettlesOnce` | src/app/ar-cases/examples/aframe/scene-objects/layout.tsx:51-64 | once the probe has settled, a later answer changes nothing |
| `SceneObjectsLayout.ContentGating` | src/app/ar-cases/examples/aframe/scene-objects/layout.tsx:14-97 | before the effect nothing renders; right after it, children and hint render iff the checks passed, so they are up while the permission prompt is open; once settled they stay iff the camera was granted, and a rejection withdraws them for the dialog; content and dialog never show together |
| `SceneObjectsLayout.CloseShowsContent` | src/app/ar-cases/examples/aframe/scene-objects/layout.tsx:76 | closing the dialog sets the error to null and brings the content back |
| `ArcorePage.CheckARSupport` | src/app/ar-cases/examples/ARCore/scene-objects/page.tsx:11-68 | on entry `isChecking` is true and the message empty; on every exit `isChecking` is false; the result is true iff all five checks pass; on false the message is the first failing check's |
| `ArcorePage.SupportedIffAllFive` | src/app/ar-cases/examples/ARCore/scene-objects/page.tsx:17-59 | true iff WebXR, `/Chrome/i`, the folded mobile-word test, secure context and session support all hold; an exact Chrome or Android UA passes the folded tests |
| `ArcorePage.FirstFailureWins` | src/app/ar-cases/examples/ARCore/scene-objects/page.tsx:17-64 | each message is set exactly when its check is the first to fail; the session query is heard only after the four synchronous checks pass |
| `ArcorePage.RejectedQueryMessage` | src/app/ar-cases/examples/ARCore/scene-objects/page.tsx:60-63 | a rejected session query fails the check; an `Error` with an empty message leaves the message empty; a non-`Error` reads as the unknown-error text |
| `ArcorePage.InitAR` | src/app/ar-cases/examples/ARCore/scene-objects/page.tsx:70-90 | no session is requested when the check returned false; a started session implies a request after a passed check; the page never ends in checking state |
| `ArcorePage.SessionOnlyAfterSupport` | src/app/ar-cases/examples/ARCore/scene-objects/page.tsx:71-89 | a session is requested iff the check passed; a rejected request sets its reason as the message |
| `ArcorePage.ButtonDisabledWhileChecking` | src/app/ar-cases/examples/ARCore/scene-objects/page.tsx:99 | the button is disabled during a check and enabled before and after it |
| `MarkerPage.StartARBehaviour` | src/app/ar-cases/examples/threejs/marker/basic/page.tsx:45-70 | `loading` first; without THREEx, error without a camera request; running iff at least one video track; every other ending is `error` with a non-empty message |
| `MarkerPage.StepKeepsConsistent` | src/app/ar-cases/examples/threejs/marker/basic/page.tsx:32-76 | every handler keeps `ready` message-free and `error` with a message |
| `MarkerPage.RunKeepsConsistent` | src/app/ar-cases/examples/threejs/marker/basic/page.tsx:28-76 | the consistency of status and message holds along any run of events |
| `MarkerPage.ReachableIsConsistent` | src/app/ar-cases/examples/threejs/marker/basic/page.tsx:28-29 | the page starts in `ready` with an empty message, and every reachable page is consistent |
| `MarkerPage.Transitions` | src/app/ar-cases/examples/threejs/marker/basic/page.tsx:32-76 | `running` is entered only from `ready` through a successful probe; `error` is left only by retry, to `ready` with `''`; a scene error moves `running` to `error` with its message |
| `MarkerPage.OnePanel` | src/app/ar-cases/examples/threejs/marker/basic/page.tsx:90-174 | exactly one panel renders per status; the AR scene only in `running`; the error panel shows the current message |
| `TryOnPage.SetVisible` | src/app/ar-cases/examples/mindar/face/tryon/page.tsx:28-37 | the button is `selected` iff `visible`, every entity's attribute spells `visible`, and other items are untouched |
| `TryOnPage.InitializeEvents` | src/app/ar-cases/examples/mindar/face/tryon/page.tsx:24-50 | flags start as `[true,false,false,true,true]`; every found button shows its flag; items without a button keep their markup state |
| `TryOnPage.ClickFlipsOnlyItsItem` | src/app/ar-cases/examples/mindar/face/tryon/page.tsx:45-48 | a click flips only its own flag and shows it; every other item's flag, button and entities are unchanged |
| `TryOnPage.ClickTwiceRestores` | src/app/ar-cases/examples/mindar/face/tryon/page.tsx:46-47 | two clicks on the same item restore the page |
| `TryOnPage.ClicksKeepMirror` | src/app/ar-cases/examples/mindar/face/tryon/page.tsx:43-48 | after any clicks every bound button and its entities mirror the flag; unbound items never change |
| `TryOnPage.RunsAtMostOnce` | src/app/ar-cases/examples/mindar/face/tryon/page.tsx:71-76 | from a fresh interval, `initializeEvents` has run once and the interval is cleared iff some tick saw both globals; it never runs twice |
| `TryOnPage.InitializesOnFirstReadyTick` | src/app/ar-cases/examples/mindar/face/tryon/page.tsx:72-74 | set-up runs on the first tick that sees both AFRAME and MINDAR, not before |
| `TryOnPage.NoTicksWithoutInterval` | src/app/ar-cases/examples/mindar/face/tryon/page.tsx:78-80 | before `isClient` and after teardown, ticks have no effect |

## Left out

- The repository's asset download scripts (`scripts/download-ar-files.*`): network and file I/O.
- three.js/AR.js scene construction and renderer options other than the device-dependent
  parameters; the projection-matrix aspect correction (floating point on library objects).
- `monitorPerformance`: FPS arithmetic on `performance.now()`.
- Wall-clock scheduling. Intervals, timeouts and `requestAnimationFrame` become indexed
  samples or events, and only the first animation frame is modelled. Whether the marker
  layout's 20th interval tick lands before or after its 10-second timeout is not decided
  here: each event's order is an input.
- The camera stream the marker page obtains in `startAR`
  (src/app/ar-cases/examples/threejs/marker/basic/page.tsx:55) is never stopped or handed
  on. The model records only whether it has video tracks, so this leak is not modelled.
- The camera-constraint records passed to `getUserMedia` (`facingMode`, ideal width and
  height), the WebXR session options, script `strategy` attributes and console logging.
- The marker layout's reload button (`window.location.reload`) and the try-on page's
  `loaded`/`targetFound`/`targetLost` scene listeners. The `isLoaded` flag set by the
  `loaded` listener is never rendered.
- An `arToolkitSource.init` or `arToolkitContext.init` callback that never fires (the
  promise would hang), and a thrown `null`/`undefined` value (reading `.message` on it
  throws again inside `catch`). A caught value is either an `Error` or another value whose
  `.message` is `undefined`.
- React's development double-invocation of effects: two overlapping `initAR` runs would
  need interleavings.
- Routing, markup-only pages, the model viewer, the catalog pages, the web-sync page and
  the A-Frame marker pages: they contain no gate logic.
- `checkARJS` cannot be cancelled: an unmount during the poll does not stop it, and the
  model has no unmount event during `initAR`. The two `ar-scene.tsx` fallback scripts are
  appended without deduplication, and errors carry only a message string.
- `SceneInit.Unmount`: treats `initAR` as finished before the unmount; an unmount while
  `initAR` is still awaiting would find no closure yet in any version. A run that throws
  after `addEventListener` leaves the listener even with the correction, since the
  `catch` returns nothing, and the lemma states that case rather than excluding it. The
  `requestAnimationFrame` loop is cancelled by neither version and is not modelled.
- `Poller.Poll`: requires the observation trace to cover every sample the poller may
  take, so a run is never cut short by missing observations.

## Findings

| source | as written | input that shows it | evidently intended | confidence | as-written member | corrected member |
|---|---|---|---|---|---|---|
| src/components/ar-scene.tsx:179-187 | the cleanup closure is returned from the async `initAR`, so it only becomes the value of `initAR`'s promise. The effect callback (lines 21-195) ends with the bare statement `initAR();` (line 194) and returns nothing, so React never runs it. three-ar-scene.tsx:261-276 has the same shape | a mount where every step succeeds, followed by an unmount | the closure `initAR` resolves to is kept in a ref and called from a synchronous cleanup the effect returns, so unmounting after `onLoad` removes the `resize` listener and disposes the renderer. Writing `return initAR()` would not do it: React would receive a promise. Even the repaired cleanup leaves the `requestAnimationFrame` loop running | high; not executed | `SceneInit.ListenerLeaksAsWritten` | `SceneInit.Unmount` |

=== FILE: ar_scene.dfy ===
/** `ARScene` in ar-scene.tsx: the same 20-sample readiness poll, but on exhaustion it
    falls back to appending the three.js and AR.js scripts itself, strictly one after the
    other. */
module ArScene {
  import opened Wrappers
  import opened Js
  import opened Poller
  import opened SceneInit

  const ThreeJsUrl := "https://cdnjs.cloudflare.com/ajax/libs/three.js/r134/three.min.js"
  const ArJsUrl := "https://raw.githack.com/AR-js-org/AR.js/master/three.js/build/ar.js"
  const ThreeJsLoadError := "Three.js 加载失败"
  const ArJsLoadError := "AR.js 加载失败"

  /** Which of a script element's two handlers fires. */
  datatype ScriptEvent = OnLoad | OnError

  /** How the fallback scripts behave: their load events, and whether the toolkit is
      defined once AR.js has loaded. */
  datatype FallbackEnv = FallbackEnv(threeJs: ScriptEvent, arJs: ScriptEvent, toolkitAfterLoad: bool)

  /** What `checkARJS` did: how its promise settled, how many samples it took, and the
      script URLs it appended to `document.head`, in order. */
  datatype CheckRun = CheckRun(result: StepResult, samplesTaken: nat, appended: seq<string>)

  /** The fallback: three.js is appended first; AR.js is appended from three.js's `onload`
      handler, so only after three.js has loaded. */
  function Fallback(fb: FallbackEnv): (r: (StepResult, seq<string>))
  {
    match fb.threeJs
    case OnError => (Threw(ErrorObject(ThreeJsLoadError)), [ThreeJsUrl])
    case OnLoad =>
      match fb.arJs
      case OnError => (Threw(ErrorObject(ArJsLoadError)), [ThreeJsUrl, ArJsUrl])
      case OnLoad =>
        if fb.toolkitAfterLoad then (Completed, [ThreeJsUrl, ArJsUrl])
        else (Threw(ErrorObject(ArjsUndefinedError)), [ThreeJsUrl, ArJsUrl])
  }

  function CheckArjs(samples: seq<bool>, fb: FallbackEnv): (c: CheckRun)
    requires MaxAttempts <= |samples|
  {
    match Poll(samples, MaxAttempts)
    case Resolved(k) => CheckRun(Completed, k, [])
    case Exhausted(n) =>
      var (result, appended) := Fallback(fb);
      CheckRun(result, n, appended)
  }

  predicate SeenWithinLimit(samples: seq<bool>)
    requires MaxAttempts <= |samples|
  {
    exists k :: 0 <= k < MaxAttempts && samples[k]
  }

  /** A toolkit seen within 20 samples resolves the poll at the first positive sample and no
      script is appended; otherwise all 20 samples are taken and the fallback runs. */
  lemma PollPhase(samples: seq<bool>, fb: FallbackEnv)
    requires MaxAttempts <= |samples|
    ensures var c := CheckArjs(samples, fb);
      && (SeenWithinLimit(samples) ==>
            c.result.Completed? && c.appended == [] && 1 <= c.samplesTaken <= MaxAttempts
            && samples[c.samplesTaken - 1] && NoneBefore(samples, c.samplesTaken - 1))
      && (!SeenWithinLimit(samples) ==> c.samplesTaken == MaxAttempts && c.appended != [])
  {
  }

  /** Fallback ordering: three.js is always the first script appended, AR.js is appended
      only once three.js has loaded, and nothing else is ever appended. */
  lemma FallbackOrder(samples: seq<bool>, fb: FallbackEnv)
    requires MaxAttempts <= |samples|
    ensures var c := CheckArjs(samples, fb);
      && |c.appended| <= 2
      && (c.appended != [] ==> c.appended[0] == ThreeJsUrl)
      && (ArJsUrl in c.appended <==> !SeenWithinLimit(samples) && fb.threeJs.OnLoad?)
      && (ArJsUrl in c.appended ==> c.appended == [ThreeJsUrl, ArJsUrl])
      && (ArJsUrl !in c.appended ==> |c.appended| <= 1)
      && (!SeenWithinLimit(samples) && fb.threeJs.OnError? ==> c.appended == [ThreeJsUrl])
  {
  }

  /** How the fallback settles: a three.js error rejects with the Three.js message, an
      AR.js error with the AR.js message, and after both load the promise resolves iff the
      toolkit is defined, rejecting with the THREEx-undefined message otherwise. */
  lemma FallbackOutcome(samples: seq<bool>, fb: FallbackEnv)
    requires MaxAttempts <= |samples|
    requires !SeenWithinLimit(samples)
    ensures var c := CheckArjs(samples, fb);
      && (fb.threeJs.OnError? ==> c.result == Threw(ErrorObject(ThreeJsLoadError)))
      && (fb.threeJs.OnLoad? && fb.arJs.OnError? ==> c.result == Threw(ErrorObject(ArJsLoadError)))
      && (fb.threeJs.OnLoad? && fb.arJs.OnLoad? ==>
            (c.result.Completed? <==> fb.toolkitAfterLoad)
            && (!fb.toolkitAfterLoad ==> c.result == Threw(ErrorObject(ArjsUndefinedError))))
  {
  }

  /** The environment's answers to the steps of `initAR`. */
  datatype InitInputs = InitInputs(
    samples: seq<bool>,
    fallback: FallbackEnv,
    threexAfterPoll: bool,
    setup: StepResult,            // scene, camera and `WebGLRenderer` creation, then `new ArToolkitSource`
    sourceInit: Option<Thrown>,
    construction: StepResult,
    firstResize: StepResult,
    firstFrame: StepResult        // `animate()` has no `try`: a throw here reaches `initAR`
  )

  function BeforeListener(inp: InitInputs): seq<StepResult>
    requires MaxAttempts <= |inp.samples|
  {
    [CheckArjs(inp.samples, inp.fallback).result,
     if inp.threexAfterPoll then Completed else Threw(ErrorObject(ThreexMissingError)),
     inp.setup,
     SourceInitStep(inp.sourceInit),
     inp.construction]
  }

  function Mount(containerPresent: bool, sceneInitialized: bool, inp: InitInputs): EffectRun
    requires MaxAttempts <= |inp.samples|
  {
    RunEffect(containerPresent, sceneInitialized, BeforeListener(inp), [inp.firstResize, inp.firstFrame])
  }

  /** `onLoad` with `sceneInitialized` on full success; a three.js fallback failure reaches
      the parent as the Three.js message; every reported message is non-empty. */
  lemma MountReports(inp: InitInputs)
    requires MaxAttempts <= |inp.samples|
    ensures var run := Mount(true, false, inp);
      && (run.report == Some(Loaded) <==>
            CheckArjs(inp.samples, inp.fallback).result.Completed? && inp.threexAfterPoll
            && inp.setup.Completed? && inp.sourceInit.None? && inp.construction.Completed?
            && inp.firstResize.Completed? && inp.firstFrame.Completed?)
      && (run.sceneInitialized <==> run.report == Some(Loaded))
      && (!SeenWithinLimit(inp.samples) && inp.fallback.threeJs.OnError? ==>
            run.report == Some(Failed(ThreeJsLoadError)))
      && run.report.Some?
      && (run.report.value.Failed? ==> Truthy(run.report.value.message))
  {
    var before := BeforeListener(inp);
    var after := [inp.firstResize, inp.firstFrame];
    EffectReports(true, false, before, after);
    assert AllCompleted(before) <==>
      before[0].Completed? && before[1].Completed? && before[2].Completed? && before[3].Completed?
      && before[4].Completed?;
    assert AllCompleted(after) <==> after[0].Completed? && after[1].Completed?;
    if !SeenWithinLimit(inp.samples) && inp.fallback.threeJs.OnError? {
      FallbackOutcome(inp.samples, inp.fallback);
      ReportAt(before + after, 0);
    }
  }
}

=== FILE: arcore_page.dfy ===
/** The ARCore scene-objects page: a five-step WebXR support check bracketed by an
    `isChecking` flag, and an `initAR` that requests an immersive AR session only after the
    check succeeded. */
module ArcorePage {
  import opened Wrappers
  import opened Js
  import opened Text
  import opened Gate
  import opened Environment

  const NoWebXrError := "您的浏览器不支持 WebXR API"
  const ChromeRequiredError := "请使用 Chrome 浏览器"
  const MobileRequiredError := "请使用移动设备访问"
  const HttpsRequiredError := "需要使用 HTTPS 协议"
  const ArUnsupportedError :=
    "设备不支持 AR 功能，请确保：\n" + "1. 使用 Android 设备\n" +
    "2. 已安装 ARCore (Google Play Services for AR)\n" + "3. Chrome 版本 >= 93"
  const UnknownError := "未知错误"

  /** `/Chrome/i.test(ua)` */
  predicate ChromeUA(env: Env)
  {
    ContainsIgnoringCase(env.userAgent, "Chrome")
  }

  /** `/Android|iPhone|iPad|iPod/i.test(ua)`; unlike the layouts, `MSStream` is not consulted. */
  predicate MobileUA(env: Env)
  {
    ContainsIgnoringCase(env.userAgent, "Android") || ContainsIgnoringCase(env.userAgent, "iPhone")
    || ContainsIgnoringCase(env.userAgent, "iPad") || ContainsIgnoringCase(env.userAgent, "iPod")
  }

  /** How `navigator.xr.isSessionSupported('immersive-ar')` settles. */
  datatype SessionQuery = Supported | NotSupported | QueryRejected(reason: Thrown)

  /** The catch clause's reading of a thrown value. */
  function CaughtMessage(t: Thrown): string
  {
    InstanceMessageOr(t, UnknownError)
  }

  function SessionCheck(q: SessionQuery): Check
  {
    match q
    case Supported => Check(true, "")
    case NotSupported => Check(false, ArUnsupportedError)
    case QueryRejected(t) => Check(false, CaughtMessage(t))
  }

  /** The five checks, in the order the `try` block runs them. The session query is only
      reached once `navigator.xr` is known to exist. */
  function SupportChecks(env: Env, q: SessionQuery): seq<Check>
  {
    [Check(env.hasXR, NoWebXrError),
     Check(ChromeUA(env), ChromeRequiredError),
     Check(MobileUA(env), MobileRequiredError),
     Check(IsSecureContext(env), HttpsRequiredError),
     SessionCheck(q)]
  }

  /** The page's state. */
  datatype Page = Page(errorMessage: string, isChecking: bool)

  const Initial := Page("", false)

  /** One run of `checkARSupport`: the state while the check is in flight, its result, and
      the state after the `finally` clause. */
  datatype CheckRun = CheckRun(during: Page, supported: bool, after: Page)

  function CheckARSupport(p: Page, env: Env, q: SessionQuery): (run: CheckRun)
    ensures run.during == Page("", true)
    ensures !run.after.isChecking
    ensures run.supported <==> AllPass(SupportChecks(env, q))
    ensures run.supported ==> run.after.errorMessage == ""
    ensures !run.supported ==> exists i :: FirstFailingAt(SupportChecks(env, q), i)
                                           && run.after.errorMessage == SupportChecks(env, q)[i].message
  {
    var during := p.(isChecking := true, errorMessage := "");
    match FirstFailure(SupportChecks(env, q))
    case Pass => CheckRun(during, true, during.(isChecking := false))
    case Fail(m) => CheckRun(during, false, during.(isChecking := false, errorMessage := m))
  }

  /** The result is true iff all five checks pass; a Chrome user agent on an Android or iOS
      phone over HTTPS with WebXR passes the first four in either letter case. */
  lemma SupportedIffAllFive(p: Page, env: Env, q: SessionQuery)
    ensures CheckARSupport(p, env, q).supported <==>
              env.hasXR && ChromeUA(env) && MobileUA(env) && IsSecureContext(env) && q == Supported
    ensures HasChrome(env) ==> ChromeUA(env)
    ensures IsAndroid(env) ==> MobileUA(env)
  {
    var cs := SupportChecks(env, q);
    assert AllPass(cs) <==> cs[0].passes && cs[1].passes && cs[2].passes && cs[3].passes && cs[4].passes;
    if HasChrome(env) {
      ContainsImpliesIgnoringCase(env.userAgent, "Chrome");
    }
    if IsAndroid(env) {
      ContainsImpliesIgnoringCase(env.userAgent, "Android");
    }
  }

  /** Each failure message belongs to the first failing step: no WebXR wins over everything,
      and the session query's verdict is heard only when the four synchronous checks passed. */
  lemma FirstFailureWins(p: Page, env: Env, q: SessionQuery)
    ensures !env.hasXR ==> CheckARSupport(p, env, q).after.errorMessage == NoWebXrError
    ensures env.hasXR && !ChromeUA(env) ==> CheckARSupport(p, env, q).after.errorMessage == ChromeRequiredError
    ensures env.hasXR && ChromeUA(env) && !MobileUA(env) ==>
              CheckARSupport(p, env, q).after.errorMessage == MobileRequiredError
    ensures (env.hasXR && ChromeUA(env) && MobileUA(env) && !IsSecureContext(env)) ==>
              CheckARSupport(p, env, q).after.errorMessage == HttpsRequiredError
    ensures (env.hasXR && ChromeUA(env) && MobileUA(env) && IsSecureContext(env) && q != Supported) ==>
              CheckARSupport(p, env, q).after.errorMessage == SessionCheck(q).message
  {
    var cs := SupportChecks(env, q);
    if !cs[0].passes {
      FirstFailureAt(cs, 0);
    } else if !cs[1].passes {
      assert cs[..1] == [cs[0]];
      FirstFailureAt(cs, 1);
    } else if !cs[2].passes {
      assert cs[..2] == [cs[0], cs[1]];
      FirstFailureAt(cs, 2);
    } else if !cs[3].passes {
      assert cs[..3] == [cs[0], cs[1], cs[2]];
      FirstFailureAt(cs, 3);
    } else if !cs[4].passes {
      assert cs[..4] == [cs[0], cs[1], cs[2], cs[3]];
      FirstFailureAt(cs, 4);
    }
  }

  /** A rejected query with an empty `Error` leaves the message empty, so the page shows no
      error although the check failed; any non-`Error` value reads as the unknown-error text. */
  lemma RejectedQueryMessage(p: Page, env: Env, t: Thrown)
    requires env.hasXR && ChromeUA(env) && MobileUA(env) && IsSecureContext(env)
    ensures !CheckARSupport(p, env, QueryRejected(t)).supported
    ensures t == ErrorObject("") ==> CheckARSupport(p, env, QueryRejected(t)).after.errorMessage == ""
    ensures t == OtherValue ==> CheckARSupport(p, env, QueryRejected(t)).after.errorMessage == UnknownError
  {
    FirstFailureWins(p, env, QueryRejected(t));
    assert !SupportChecks(env, QueryRejected(t))[4].passes;
  }

  /** How `navigator.xr.requestSession` settles. */
  datatype SessionRequest = SessionStarted | RequestRejected(reason: Thrown)

  /** One press of the start button. */
  datatype InitRun = InitRun(check: CheckRun, sessionRequested: bool, sessionStarted: bool, final: Page)

  function InitAR(p: Page, env: Env, q: SessionQuery, request: SessionRequest): (run: InitRun)
    ensures !run.check.supported ==> !run.sessionRequested && run.final == run.check.after
    ensures run.sessionStarted ==> run.sessionRequested && run.check.supported
    ensures !run.final.isChecking
  {
    var check := CheckARSupport(p, env, q);
    if !check.supported then InitRun(check, false, false, check.after)
    else
      match request
      case SessionStarted => InitRun(check, true, true, check.after)
      case RequestRejected(t) => InitRun(check, true, false, check.after.(errorMessage := CaughtMessage(t)))
  }

  /** A session is requested exactly when the support check returned true, and a rejected
      request leaves its reason as the page's message. */
  lemma SessionOnlyAfterSupport(p: Page, env: Env, q: SessionQuery, request: SessionRequest)
    ensures InitAR(p, env, q, request).sessionRequested <==> CheckARSupport(p, env, q).supported
    ensures CheckARSupport(p, env, q).supported && request.RequestRejected? ==>
              InitAR(p, env, q, request).final.errorMessage == CaughtMessage(request.reason)
    ensures InitAR(p, env, q, request).sessionStarted <==>
              CheckARSupport(p, env, q).supported && request == SessionStarted
  {
  }

  /** `disabled={isChecking}` */
  predicate ButtonDisabled(p: Page)
  {
    p.isChecking
  }

  /** The button is disabled exactly while a check is in flight: on entry to the check and
      never once it has settled, whichever way it settled. `during` is a state of the
      component, not necessarily a rendered frame: when a synchronous check fails, both
      `setIsChecking` calls run before any `await` and React batches them, so that disabled
      state is never painted. */
  lemma ButtonDisabledWhileChecking(p: Page, env: Env, q: SessionQuery, request: SessionRequest)
    ensures ButtonDisabled(CheckARSupport(p, env, q).during)
    ensures !ButtonDisabled(CheckARSupport(p, env, q).after)
    ensures !ButtonDisabled(InitAR(p, env, q, request).final)
    ensures !ButtonDisabled(Initial)
  {
  }
}

=== FILE: environment.dfy ===
/** The browser as the components see it: one immutable record of the facts they read
    from `navigator`, `window` and `window.location`, and the device classification they
    derive from the user-agent string. */
module Environment {
  import opened Text
  import opened Wrappers

  datatype Env = Env(
    userAgent: string,
    msStream: bool,                   // `window.MSStream` is truthy (old IE on Windows Phone)
    innerWidth: nat,
    innerHeight: nat,
    protocol: string,                 // `window.location.protocol`, e.g. "https:"
    hostname: string,                 // `window.location.hostname`
    hasXR: bool,                      // `navigator.xr` is defined
    hasMediaDevices: bool,            // `navigator.mediaDevices.getUserMedia` is defined
    hardwareConcurrency: Option<nat>  // `navigator.hardwareConcurrency`, absent on some browsers
  )

  /** Messages shared verbatim by both layouts' browser checks. */
  const IosNeedsSafari := "iOS设备请使用Safari浏览器访问"
  const AndroidNeedsChrome := "Android设备请使用Chrome浏览器访问"

  /** `/iPad|iPhone|iPod/.test(ua) && !window.MSStream` */
  predicate IsIOS(env: Env)
  {
    (Contains(env.userAgent, "iPad") || Contains(env.userAgent, "iPhone") || Contains(env.userAgent, "iPod"))
    && !env.msStream
  }

  /** `/Android/.test(ua)` */
  predicate IsAndroid(env: Env)
  {
    Contains(env.userAgent, "Android")
  }

  predicate IsMobile(env: Env)
  {
    IsIOS(env) || IsAndroid(env)
  }

  predicate HasSafari(env: Env)
  {
    Contains(env.userAgent, "Safari")
  }

  predicate HasChrome(env: Env)
  {
    Contains(env.userAgent, "Chrome")
  }

  /** `protocol === 'https:' || hostname === 'localhost'`: the pages accept plain HTTP
      only on the development host. */
  predicate IsSecureContext(env: Env)
  {
    env.protocol == "https:" || env.hostname == "localhost"
  }

  /** `navigator.hardwareConcurrency || 4`: an absent value and a zero are both read as 4. */
  function EffectiveConcurrency(env: Env): nat
  {
    match env.hardwareConcurrency
    case None => 4
    case Some(n) => if n == 0 then 4 else n
  }

  /** Only a mobile device with at most four logical cores is treated as low-end. */
  predicate IsLowEnd(env: Env)
  {
    IsMobile(env) && EffectiveConcurrency(env) <= 4
  }

  /** The record `getDeviceInfo` returns. */
  datatype DeviceInfo = DeviceInfo(isIOS: bool, isAndroid: bool, isMobile: bool, isLowEndDevice: bool)

  /** Classifies the device by scanning the user agent, as `getDeviceInfo` does with its
      regular expressions. */
  method GetDeviceInfo(env: Env) returns (info: DeviceInfo)
    ensures info.isIOS <==> IsIOS(env)
    ensures info.isAndroid <==> IsAndroid(env)
    ensures info.isMobile <==> info.isIOS || info.isAndroid
    ensures info.isLowEndDevice <==> IsLowEnd(env)
  {
    var pad := Includes(env.userAgent, "iPad");
    var phone := Includes(env.userAgent, "iPhone");
    var pod := Includes(env.userAgent, "iPod");
    var android := Includes(env.userAgent, "Android");
    var ios := (pad || phone || pod) && !env.msStream;
    var mobile := ios || android;
    var cores := if env.hardwareConcurrency.Some? && env.hardwareConcurrency.value != 0
                 then env.hardwareConcurrency.value else 4;
    info := DeviceInfo(ios, android, mobile, mobile && cores <= 4);
  }

  /** A low-end device is always mobile, and a mobile browser that does not report its core
      count (or reports zero) always counts as low-end. */
  lemma LowEndIsMobile(env: Env)
    ensures IsLowEnd(env) ==> IsMobile(env)
    ensures (env.hardwareConcurrency == None || env.hardwareConcurrency == Some(0))
            ==> (IsLowEnd(env) <==> IsMobile(env))
  {
  }

  /** A Windows Phone user agent advertising an iPhone is not iOS, and so is mobile only
      if it also mentions Android. */
  lemma MsStreamIsNotIOS(env: Env)
    requires env.msStream
    ensures !IsIOS(env)
    ensures IsMobile(env) <==> IsAndroid(env)
  {
  }
}

=== FILE: gate.dfy ===
/** The ordered capability checks every validator in the catalog runs: each check either
    passes or names its message, and the chain stops at the first failure. */
module Gate {
  import opened Wrappers

  /** One environment check: whether it passes, and the message shown when it does not. */
  datatype Check = Check(passes: bool, message: string)

  predicate AllPass(checks: seq<Check>)
  {
    forall i :: 0 <= i < |checks| ==> checks[i].passes
  }

  /** Check `i` is the first one that fails. */
  predicate FirstFailingAt(checks: seq<Check>, i: int)
  {
    0 <= i < |checks| && !checks[i].passes && AllPass(checks[..i])
  }

  /** Evaluates the checks in order and stops at the first failure, reporting exactly that
      check's message; no later check influences the verdict. */
  function FirstFailure(checks: seq<Check>): (r: Outcome)
    ensures r.Pass? <==> AllPass(checks)
    ensures r.Fail? ==> exists i :: FirstFailingAt(checks, i) && r.message == checks[i].message
  {
    if |checks| == 0 then Pass
    else if !checks[0].passes then
      assert FirstFailingAt(checks, 0);
      Fail(checks[0].message)
    else
      var r := FirstFailure(checks[1..]);
      if r.Fail? then
        var i :| FirstFailingAt(checks[1..], i) && r.message == checks[1..][i].message;
        assert checks[..i + 1] == [checks[0]] + checks[1..][..i];
        assert FirstFailingAt(checks, i + 1);
        r
      else
        r
  }

  /** The first failing check decides the message, whatever the checks after it say. */
  lemma {:induction false} FirstFailureAt(checks: seq<Check>, i: int)
    requires FirstFailingAt(checks, i)
    ensures FirstFailure(checks) == Fail(checks[i].message)
  {
  }

  /** Only the checks up to and including the first failure are looked at: changing
      anything after it leaves the verdict alone. */
  lemma PrefixDecides(checks: seq<Check>, i: int, rest: seq<Check>)
    requires FirstFailingAt(checks, i)
    ensures FirstFailure(checks[..i + 1] + rest) == FirstFailure(checks)
  {
    var c := checks[..i + 1] + rest;
    assert c[..i] == checks[..i];
    assert FirstFailingAt(c, i);
    FirstFailureAt(c, i);
    FirstFailureAt(checks, i);
  }
}

=== FILE: js.dfy ===
/** The few JavaScript value semantics the components lean on. */
module Js {

  /** A value caught by a `catch` clause: an `Error` object (which carries a message)
      or anything else that was thrown (whose `.message` is `undefined`). */
  datatype Thrown = ErrorObject(message: string) | OtherValue

  /** `s` is truthy: the empty string is the only falsy string. */
  predicate Truthy(s: string)
  {
    s != ""
  }

  /** `error.message || fallback`: the error's message when it is a non-empty string,
      otherwise the fallback text. */
  function MessageOr(t: Thrown, fallback: string): (m: string)
    ensures Truthy(fallback) ==> Truthy(m)
    ensures t.ErrorObject? && Truthy(t.message) ==> m == t.message
    ensures !(t.ErrorObject? && Truthy(t.message)) ==> m == fallback
  {
    match t
    case ErrorObject(msg) => if Truthy(msg) then msg else fallback
    case OtherValue => fallback
  }

  /** `error instanceof Error ? error.message : fallback`: an `Error` keeps its message
      even when that message is empty. */
  function InstanceMessageOr(t: Thrown, fallback: string): string
  {
    match t
    case ErrorObject(msg) => msg
    case OtherValue => fallback
  }

  /** The string a `+` concatenation produces from `error.message`: the text `undefined`
      when the thrown value is not an `Error`. */
  function MessageText(t: Thrown): string
  {
    match t
    case ErrorObject(msg) => msg
    case OtherValue => "undefined"
  }

  /** `b.toString()` for a boolean. */
  function BoolText(b: bool): string
  {
    if b then "true" else "false"
  }

  /** The two readings of a caught value differ exactly on an `Error` with an empty message:
      `||` replaces it by the fallback, `instanceof` keeps the empty text. */
  lemma MessageReadingsDiffer(t: Thrown, fallback: string)
    requires Truthy(fallback)
    ensures MessageOr(t, fallback) != InstanceMessageOr(t, fallback) <==> t == ErrorObject("")
  {
  }
}

=== FILE: marker_layout.dfy ===
/** The layout of the three.js marker example: a compatibility check, then an AR.js
    readiness interval bounded by a 10-second timeout, and orientation listeners that keep
    the error message in step with the window's shape. */
module MarkerLayout {
  import opened Wrappers
  import opened Text
  import opened Gate
  import opened Environment

  const LandscapeError := "请将设备横屏使用以获得更好的体验"
  const TimeoutError := "AR.js 加载超时，请检查网络连接并刷新页面"
  const MinMobileWidth: nat := 480

  predicate IosWithoutSafari(env: Env) { IsIOS(env) && !HasSafari(env) }
  predicate AndroidWithoutChrome(env: Env) { IsAndroid(env) && !HasChrome(env) }
  predicate NarrowMobile(env: Env) { IsMobile(env) && env.innerWidth < MinMobileWidth }

  function CompatibilityChecks(env: Env): seq<Check>
  {
    [Check(!IosWithoutSafari(env), IosNeedsSafari),
     Check(!AndroidWithoutChrome(env), AndroidNeedsChrome),
     Check(!NarrowMobile(env), LandscapeError)]
  }

  /** `checkCompatibility`: true iff none of the three failure conditions holds; on `false`
      the message of the first condition that holds is the one set. */
  function CheckCompatibility(env: Env): (r: Outcome)
    ensures r.Pass? <==> !IosWithoutSafari(env) && !AndroidWithoutChrome(env) && !NarrowMobile(env)
    ensures IosWithoutSafari(env) ==> r == Fail(IosNeedsSafari)
    ensures !IosWithoutSafari(env) && AndroidWithoutChrome(env) ==> r == Fail(AndroidNeedsChrome)
    ensures !IosWithoutSafari(env) && !AndroidWithoutChrome(env) && NarrowMobile(env) ==> r == Fail(LandscapeError)
  {
    var cs := CompatibilityChecks(env);
    if IosWithoutSafari(env) then
      FirstFailureAt(cs, 0);
      FirstFailure(cs)
    else if AndroidWithoutChrome(env) then
      assert cs[..1] == [cs[0]];
      FirstFailureAt(cs, 1);
      FirstFailure(cs)
    else if NarrowMobile(env) then
      assert cs[..2] == [cs[0], cs[1]];
      FirstFailureAt(cs, 2);
      FirstFailure(cs)
    else
      FirstFailure(cs)
  }

  /** The Android message is reached only when the iOS check passed, and the landscape
      message only on a mobile user agent: a desktop browser never gets it, however narrow
      its window. */
  lemma FailureImplications(env: Env)
    ensures CheckCompatibility(env) == Fail(AndroidNeedsChrome) ==> !IosWithoutSafari(env) && AndroidWithoutChrome(env)
    ensures CheckCompatibility(env) == Fail(LandscapeError) ==> IsMobile(env) && env.innerWidth < MinMobileWidth
    ensures !IsMobile(env) ==> CheckCompatibility(env) == Pass
  {
  }

  /** The timers and listeners the effect installs. */
  datatype Resource = ArjsInterval | LoadTimeout | OrientationListener | ResizeListener

  const AllResources: set<Resource> := {ArjsInterval, LoadTimeout, OrientationListener, ResizeListener}

  /** The layout's state: `arjsLoaded`, `arjsError`, and what is still pending. */
  datatype Layout = Layout(arjsLoaded: bool, arjsError: string, pending: set<Resource>)

  const Initial := Layout(false, "", {})

  /** The effect on mount: a failed check sets its message and installs nothing; a passed
      one installs the interval, the timeout and both listeners. */
  function Mount(env: Env): Layout
  {
    match CheckCompatibility(env)
    case Fail(m) => Initial.(arjsError := m)
    case Pass => Initial.(pending := AllResources)
  }

  /** `handleOrientation`: the landscape message when the window is taller than wide,
      otherwise the empty string, which also erases whatever error was shown before. */
  function HandleOrientation(l: Layout, width: nat, height: nat): Layout
  {
    l.(arjsError := if width < height then LandscapeError else "")
  }

  /** The cleanup returned by the effect: both `clearInterval`/`clearTimeout` calls and both
      `removeEventListener` calls. */
  function Teardown(l: Layout): Layout
  {
    l.(pending := {})
  }

  /** What can happen after mount. A timer event is delivered only while that timer is
      pending, a window event only while its listener is registered. */
  datatype Event =
    | IntervalTick(toolkitPresent: bool)
    | TimeoutFired(toolkitPresent: bool)
    | OrientationChange(width: nat, height: nat)
    | WindowResize(width: nat, height: nat)
    | Unmount

  function Step(l: Layout, e: Event): Layout
  {
    match e
    case IntervalTick(present) =>
      if ArjsInterval in l.pending && present then l.(arjsLoaded := true) else l
    case TimeoutFired(present) =>
      if LoadTimeout in l.pending then
        var cleared := l.(pending := l.pending - {ArjsInterval, LoadTimeout});
        if present then cleared else cleared.(arjsError := TimeoutError)
      else l
    case OrientationChange(w, h) =>
      if OrientationListener in l.pending then HandleOrientation(l, w, h) else l
    case WindowResize(w, h) =>
      if ResizeListener in l.pending then HandleOrientation(l, w, h) else l
    case Unmount => Teardown(l)
  }

  function Run(l: Layout, events: seq<Event>): Layout
    decreases |events|
  {
    if |events| == 0 then l else Run(Step(l, events[0]), events[1..])
  }

  /** `checkCompatibility() === false` exactly when the effect installs no interval, no
      timeout and no listener. */
  lemma MountInstallsAllOrNothing(env: Env)
    ensures CheckCompatibility(env).Fail? <==> Mount(env).pending == {}
    ensures CheckCompatibility(env).Pass? <==> Mount(env).pending == AllResources
    ensures Mount(env).arjsError == "" <==> CheckCompatibility(env).Pass?
  {
  }

  /** A state with nothing pending ignores every event. */
  lemma {:induction false} NothingPendingIsInert(l: Layout, events: seq<Event>)
    requires l.pending == {}
    ensures Run(l, events) == l
    decreases |events|
  {
    if |events| > 0 {
      assert Step(l, events[0]) == l;
      NothingPendingIsInert(l, events[1..]);
    }
  }

  /** A failed compatibility check leaves its message in place for good: nothing was
      installed that could change it. */
  lemma FailedMountIsFinal(env: Env, events: seq<Event>)
    requires CheckCompatibility(env).Fail?
    ensures Run(Mount(env), events) == Mount(env)
    ensures Run(Mount(env), events).arjsError == CheckCompatibility(env).message
  {
    NothingPendingIsInert(Mount(env), events);
  }

  /** Teardown clears both timers and removes both listeners, so no callback fires after it. */
  lemma TeardownSilencesEverything(l: Layout, events: seq<Event>)
    ensures Teardown(l).pending == {}
    ensures Teardown(l).arjsLoaded == l.arjsLoaded && Teardown(l).arjsError == l.arjsError
    ensures Run(Teardown(l), events) == Teardown(l)
  {
    NothingPendingIsInert(Teardown(l), events);
  }

  /** When the timeout fires it clears the interval, and sets the timeout message only if
      the toolkit is still absent; afterwards no tick can mark AR.js as loaded. */
  lemma TimeoutBehaviour(l: Layout, present: bool, later: bool)
    requires LoadTimeout in l.pending
    ensures ArjsInterval !in Step(l, TimeoutFired(present)).pending
    ensures Step(l, TimeoutFired(present)).arjsError == (if present then l.arjsError else TimeoutError)
    ensures Step(Step(l, TimeoutFired(present)), IntervalTick(later)) == Step(l, TimeoutFired(present))
  {
  }

  /** Either listener sets the landscape message iff the window is taller than wide, and
      clears any earlier message otherwise. */
  lemma OrientationSetsOrClears(l: Layout, w: nat, h: nat)
    requires OrientationListener in l.pending && ResizeListener in l.pending
    ensures Step(l, OrientationChange(w, h)).arjsError == LandscapeError <==> w < h
    ensures !(w < h) ==> Step(l, WindowResize(w, h)).arjsError == ""
    ensures Step(l, OrientationChange(w, h)) == Step(l, WindowResize(w, h))
    ensures Step(l, OrientationChange(w, h)).pending == l.pending
    ensures Step(l, OrientationChange(w, h)).arjsLoaded == l.arjsLoaded
  {
  }

  /** The pending set only ever shrinks after mount: no event installs a timer or listener. */
  lemma {:induction false} PendingOnlyShrinks(l: Layout, events: seq<Event>)
    ensures Run(l, events).pending <= l.pending
    decreases |events|
  {
    if |events| > 0 {
      PendingOnlyShrinks(Step(l, events[0]), events[1..]);
    }
  }

  /** `!arjsLoaded && !arjsError`: the "loading AR components" hint. */
  predicate ShowsLoadingHint(l: Layout)
  {
    !l.arjsLoaded && l.arjsError == ""
  }

  /** `arjsError && …`: the full-screen error overlay with the reload button. */
  predicate ShowsErrorOverlay(l: Layout)
  {
    l.arjsError != ""
  }

  /** The hint and the overlay never show together. A timeout with the toolkit still absent
      replaces the hint by the overlay; a later resize to a landscape window clears the
      message, so the hint comes back although the timeout has already fired. */
  lemma TimeoutOverlayAndResize(l: Layout, w: nat, h: nat)
    requires LoadTimeout in l.pending && ResizeListener in l.pending && !l.arjsLoaded
    requires h <= w
    ensures !(ShowsLoadingHint(l) && ShowsErrorOverlay(l))
    ensures ShowsErrorOverlay(Step(l, TimeoutFired(false)))
    ensures ShowsLoadingHint(Step(Step(l, TimeoutFired(false)), WindowResize(w, h)))
    ensures LoadTimeout !in Step(Step(l, TimeoutFired(false)), WindowResize(w, h)).pending
  {
  }
}

=== FILE: marker_page.dfy ===
/** The three.js marker page: a four-state session machine (`ready`, `loading`, `running`,
    `error`) with retry, where a camera probe gates the move to `running`, and one panel
    rendered per state. */
module MarkerPage {
  import opened Js
  import opened SceneInit

  datatype Status = Ready | Loading | Running | Error

  datatype Page = Page(status: Status, errorMessage: string)

  const Initial := Page(Ready, "")

  const ArjsMissingError := "AR.js 未加载，请刷新页面重试"
  const NoVideoError := "无法获取视频流"
  const CameraDefaultError := "无法访问摄像头，请确保已授予摄像头访问权限。"

  /** How `getUserMedia` settles: a stream with some number of video tracks, or a throw. */
  datatype CameraResult = Stream(videoTracks: nat) | CameraThrew(reason: Thrown)

  /** `handleError(message)` */
  function HandleError(p: Page, message: string): Page
  {
    Page(Error, message)
  }

  /** `handleLoad()` */
  function HandleLoad(p: Page): Page
  {
    p.(status := Running)
  }

  /** `handleRetry()` */
  function HandleRetry(p: Page): Page
  {
    Page(Ready, "")
  }

  /** One call of `startAR`: the statuses it passes through, whether it asked for the
      camera, and the final page. */
  datatype StartRun = StartRun(statuses: seq<Status>, cameraRequested: bool, final: Page)

  function StartAR(p: Page, threexPresent: bool, camera: CameraResult): (run: StartRun)
  {
    var loading := p.(status := Loading);
    if !threexPresent then
      StartRun([Loading, Error], false, HandleError(loading, ArjsMissingError))
    else
      match camera
      case Stream(n) =>
        if n > 0 then StartRun([Loading, Running], true, loading.(status := Running))
        else StartRun([Loading, Error], true, HandleError(loading, NoVideoError))
      case CameraThrew(t) =>
        StartRun([Loading, Error], true, HandleError(loading, MessageOr(t, CameraDefaultError)))
  }

  /** `startAR` enters `loading` first; without THREEx it fails without touching the
      camera; with it, at least one video track leads to `running` and anything else to
      `error` with a non-empty message. */
  lemma StartARBehaviour(p: Page, threexPresent: bool, camera: CameraResult)
    ensures var run := StartAR(p, threexPresent, camera);
      && |run.statuses| == 2 && run.statuses[0] == Loading
      && run.statuses[1] == run.final.status
      && (run.cameraRequested <==> threexPresent)
      && (!threexPresent ==> run.final == Page(Error, ArjsMissingError))
      && (run.final.status == Running <==> threexPresent && camera.Stream? && camera.videoTracks > 0)
      && (run.final.status != Running ==> run.final.status == Error && Truthy(run.final.errorMessage))
      && (threexPresent && camera == Stream(0) ==> run.final.errorMessage == NoVideoError)
  {
  }

  /** The events the page reacts to. The start button exists only in `ready`, the scene that
      reports `onLoad`/`onError` is mounted only in `running`, and the retry button exists
      only in `error`; events arriving elsewhere have no handler. */
  datatype Event =
    | Start(threexPresent: bool, camera: CameraResult)
    | SceneReported(report: InitReport)
    | Retry

  function Step(p: Page, e: Event): Page
  {
    match e
    case Start(present, camera) =>
      if p.status == Ready then StartAR(p, present, camera).final else p
    case SceneReported(r) =>
      if p.status == Running then
        match r
        case Loaded => HandleLoad(p)
        case Failed(m) => HandleError(p, m)
      else p
    case Retry =>
      if p.status == Error then HandleRetry(p) else p
  }

  function Run(p: Page, events: seq<Event>): Page
    decreases |events|
  {
    if |events| == 0 then p else Run(Step(p, events[0]), events[1..])
  }

  /** The scene only ever reports non-empty messages (its `catch` falls back to a default). */
  predicate WellFormed(e: Event)
  {
    e.SceneReported? && e.report.Failed? ==> Truthy(e.report.message)
  }

  /** Every reachable page: `ready` carries no message, `error` always has one to show. */
  predicate Consistent(p: Page)
  {
    (p.status == Ready ==> p.errorMessage == "") && (p.status == Error ==> Truthy(p.errorMessage))
  }

  lemma StepKeepsConsistent(p: Page, e: Event)
    requires Consistent(p) && WellFormed(e)
    ensures Consistent(Step(p, e))
  {
  }

  lemma {:induction false} RunKeepsConsistent(p: Page, events: seq<Event>)
    requires Consistent(p)
    requires forall i :: 0 <= i < |events| ==> WellFormed(events[i])
    ensures Consistent(Run(p, events))
    decreases |events|
  {
    if |events| > 0 {
      StepKeepsConsistent(p, events[0]);
      RunKeepsConsistent(Step(p, events[0]), events[1..]);
    }
  }

  /** The page starts in `ready` with no message, and every page reachable from there with
      messages coming from the scene is consistent. */
  lemma ReachableIsConsistent(events: seq<Event>)
    requires forall i :: 0 <= i < |events| ==> WellFormed(events[i])
    ensures Initial.status == Ready && Initial.errorMessage == ""
    ensures Consistent(Run(Initial, events))
  {
    RunKeepsConsistent(Initial, events);
  }

  /** `running` is entered only from `ready` through a successful camera probe; `error` is
      left only through retry, which restores `ready` with an empty message. */
  lemma Transitions(p: Page, e: Event)
    ensures Step(p, e).status == Running && p.status != Running ==>
              p.status == Ready && e.Start? && e.threexPresent && e.camera.Stream? && e.camera.videoTracks > 0
    ensures p.status == Error && Step(p, e).status != Error ==> e.Retry? && Step(p, e) == Page(Ready, "")
    ensures e.SceneReported? && e.report.Failed? && p.status == Running ==>
              Step(p, e) == Page(Error, e.report.message)
  {
  }

  /** The four panels of the page. */
  datatype Panel = StartPanel | LoadingPanel | ErrorPanel(message: string) | ScenePanel

  /** The four independent `status === …` conditions of the markup. */
  function Panels(p: Page): set<Panel>
  {
    (if p.status == Ready then {StartPanel} else {})
    + (if p.status == Loading then {LoadingPanel} else {})
    + (if p.status == Error then {ErrorPanel(p.errorMessage)} else {})
    + (if p.status == Running then {ScenePanel} else {})
  }

  /** Exactly one panel renders for every status, the AR scene is mounted only in `running`,
      and the error panel shows the current message. */
  lemma OnePanel(p: Page)
    ensures |Panels(p)| == 1
    ensures ScenePanel in Panels(p) <==> p.status == Running
    ensures StartPanel in Panels(p) <==> p.status == Ready
    ensures ErrorPanel(p.errorMessage) in Panels(p) <==> p.status == Error
  {
  }
}

=== FILE: poller.dfy ===
/** The bounded readiness poller both AR scene components use: sample a global, resolve at
    the first sample that sees it, give up after a fixed number of samples. Time is
    abstracted into the sequence of observations, one per sample. */
module Poller {

  /** `Resolved(k)`: sample `k` (counting from 1) saw the global. `Exhausted(n)`: `n`
      samples were taken and none saw it. */
  datatype PollResult = Resolved(attempt: nat) | Exhausted(attempts: nat)

  /** The number of samples the poller can take. The counter is incremented before it is
      compared with the maximum, so a maximum of 0 still takes one sample. */
  function Limit(maxAttempts: nat): (n: nat)
    ensures n >= 1
  {
    if maxAttempts == 0 then 1 else maxAttempts
  }

  /** No sample before `k` saw the global. */
  predicate NoneBefore(samples: seq<bool>, k: nat)
    requires k <= |samples|
  {
    forall j :: 0 <= j < k ==> !samples[j]
  }

  /** Reference behaviour: the poller resolves at the first positive sample among the first
      `Limit` ones, and otherwise reports that it exhausted all of them. */
  predicate Specified(samples: seq<bool>, maxAttempts: nat, r: PollResult)
    requires Limit(maxAttempts) <= |samples|
  {
    match r
    case Resolved(k) => 1 <= k <= Limit(maxAttempts) && samples[k - 1] && NoneBefore(samples, k - 1)
    case Exhausted(n) => n == Limit(maxAttempts) && NoneBefore(samples, n)
  }

  /** One `check()` call after `attempts` earlier samples: count, sample, then either
      resolve, give up, or schedule the next call. */
  function PollFrom(samples: seq<bool>, attempts: nat, maxAttempts: nat): (r: PollResult)
    requires attempts < Limit(maxAttempts) <= |samples|
    requires NoneBefore(samples, attempts)
    ensures Specified(samples, maxAttempts, r)
    decreases Limit(maxAttempts) - attempts
  {
    var count := attempts + 1;
    if samples[count - 1] then Resolved(count)
    else if count >= maxAttempts then Exhausted(count)
    else PollFrom(samples, count, maxAttempts)
  }

  /** `samples[k]` is what the `k+1`-th sample observes; the trace must cover every sample
      the poller may take. */
  function Poll(samples: seq<bool>, maxAttempts: nat): (r: PollResult)
    requires Limit(maxAttempts) <= |samples|
    ensures Specified(samples, maxAttempts, r)
  {
    PollFrom(samples, 0, maxAttempts)
  }

  /** The specification admits exactly one result, so the poller is its only implementation. */
  lemma SpecifiedIsUnique(samples: seq<bool>, maxAttempts: nat, r1: PollResult, r2: PollResult)
    requires Limit(maxAttempts) <= |samples|
    requires Specified(samples, maxAttempts, r1) && Specified(samples, maxAttempts, r2)
    ensures r1 == r2
  {
  }

  /** The poller never samples more than its limit, and it only gives up after taking
      exactly that many samples. */
  lemma SampleBound(samples: seq<bool>, maxAttempts: nat)
    requires Limit(maxAttempts) <= |samples|
    ensures Poll(samples, maxAttempts).Resolved? ==> Poll(samples, maxAttempts).attempt <= Limit(maxAttempts)
    ensures Poll(samples, maxAttempts).Exhausted? ==> Poll(samples, maxAttempts).attempts == Limit(maxAttempts)
  {
  }

  /** The readiness test precedes the limit test: a global that first appears on the very
      last permitted sample still resolves the poll. */
  lemma LastSampleStillResolves(samples: seq<bool>, maxAttempts: nat)
    requires Limit(maxAttempts) <= |samples|
    requires NoneBefore(samples, Limit(maxAttempts) - 1) && samples[Limit(maxAttempts) - 1]
    ensures Poll(samples, maxAttempts) == Resolved(Limit(maxAttempts))
  {
  }

  /** Observations after the limit are never read. */
  lemma LaterSamplesIgnored(samples: seq<bool>, extra: seq<bool>, maxAttempts: nat)
    requires Limit(maxAttempts) <= |samples|
    ensures Poll(samples + extra, maxAttempts) == Poll(samples, maxAttempts)
  {
    var a := samples + extra;
    var r := Poll(samples, maxAttempts);
    assert Specified(a, maxAttempts, r) by {
      forall j | 0 <= j < Limit(maxAttempts)
        ensures a[j] == samples[j]
      {
      }
    }
    SpecifiedIsUnique(a, maxAttempts, Poll(a, maxAttempts), r);
  }

  /** Milliseconds from the first sample to the sample that ended the poll: the first
      `check()` runs immediately and each later one `intervalMs` after the previous one. */
  function ElapsedMs(r: PollResult, intervalMs: nat): (t: nat)
  {
    match r
    case Resolved(k) => if k == 0 then 0 else (k - 1) * intervalMs
    case Exhausted(n) => if n == 0 then 0 else (n - 1) * intervalMs
  }

  /** A global first seen by sample `j + 1` resolves the poll after exactly `j` intervals,
      and a global never seen makes it give up after exactly `(Limit - 1)` intervals. */
  lemma SettleTimeExact(samples: seq<bool>, maxAttempts: nat, intervalMs: nat)
    requires Limit(maxAttempts) <= |samples|
    ensures forall j :: 0 <= j < Limit(maxAttempts) && samples[j] && NoneBefore(samples, j) ==>
              ElapsedMs(Poll(samples, maxAttempts), intervalMs) == j * intervalMs
    ensures NoneBefore(samples, Limit(maxAttempts)) ==>
              ElapsedMs(Poll(samples, maxAttempts), intervalMs) == (Limit(maxAttempts) - 1) * intervalMs
  {
    forall j | 0 <= j < Limit(maxAttempts) && samples[j] && NoneBefore(samples, j)
      ensures ElapsedMs(Poll(samples, maxAttempts), intervalMs) == j * intervalMs
    {
      SpecifiedIsUnique(samples, maxAttempts, Poll(samples, maxAttempts), Resolved(j + 1));
    }
    if NoneBefore(samples, Limit(maxAttempts)) {
      SpecifiedIsUnique(samples, maxAttempts, Poll(samples, maxAttempts), Exhausted(Limit(maxAttempts)));
    }
  }

  /** However the global behaves, the poll settles within `(Limit - 1) * intervalMs`:
      either it resolved at some sample no later than the last, or it exhausted them all. */
  lemma SettlesInTime(samples: seq<bool>, maxAttempts: nat, intervalMs: nat)
    requires Limit(maxAttempts) <= |samples|
    ensures ElapsedMs(Poll(samples, maxAttempts), intervalMs) <= (Limit(maxAttempts) - 1) * intervalMs
  {
    SettleTimeExact(samples, maxAttempts, intervalMs);
    match Poll(samples, maxAttempts)
    case Resolved(k) =>
      var j := k - 1;
      assert samples[j] && NoneBefore(samples, j);
      assert j * intervalMs <= (Limit(maxAttempts) - 1) * intervalMs by {
        MulLeq(j, Limit(maxAttempts) - 1, intervalMs);
      }
    case Exhausted(_) =>
  }

  /** Scaling by a natural number keeps the order. */
  lemma MulLeq(a: nat, b: nat, c: nat)
    requires a <= b
    ensures a * c <= b * c
  {
  }
}

=== FILE: scene_init.dfy ===
/** The shape both AR scene components share: an effect that runs a fixed sequence of
    initialisation steps, reports success through `onLoad` or the first thrown error
    through `onError`, and installs a `resize` listener on the way. */
module SceneInit {
  import opened Wrappers
  import opened Js
  import opened Gate

  const DefaultInitError := "AR场景初始化失败"
  const ThreexMissingError := "Three.js 未加载"
  const SourceInitPrefix := "AR 源初始化失败: "
  /** The rejection of both components' readiness polls. */
  const ArjsUndefinedError := "AR.js 加载失败：THREEx 对象未定义"
  /** Both readiness polls give up after this many samples. */
  const MaxAttempts: nat := 20

  /** How one awaited initialisation step ended. */
  datatype StepResult = Completed | Threw(reason: Thrown)

  /** What the component tells its parent: `onLoad()`, or `onError(message)`. */
  datatype InitReport = Loaded | Failed(message: string)

  /** The source-initialisation step, whose `catch` rejects with
      `new Error('AR 源初始化失败: ' + error.message)`. */
  function SourceInitStep(t: Option<Thrown>): StepResult
  {
    match t
    case None => Completed
    case Some(e) => Threw(ErrorObject(SourceInitPrefix + MessageText(e)))
  }

  predicate AllCompleted(steps: seq<StepResult>)
  {
    forall i :: 0 <= i < |steps| ==> steps[i].Completed?
  }

  /** The `catch` clause of `initAR` reads a thrown value as `error.message || default`. */
  function StepCheck(s: StepResult): Check
  {
    match s
    case Completed => Check(true, "")
    case Threw(t) => Check(false, MessageOr(t, DefaultInitError))
  }

  function StepChecks(steps: seq<StepResult>): (cs: seq<Check>)
    ensures |cs| == |steps|
    ensures forall i :: 0 <= i < |steps| ==> cs[i] == StepCheck(steps[i])
  {
    seq(|steps|, i requires 0 <= i < |steps| => StepCheck(steps[i]))
  }

  /** Runs the steps in order inside one `try`; the first step that throws ends the run. */
  function Report(steps: seq<StepResult>): (r: InitReport)
    ensures r.Loaded? <==> AllCompleted(steps)
    ensures r.Failed? ==> Truthy(r.message)
    ensures r.Failed? ==> exists i :: 0 <= i < |steps| && steps[i].Threw? && AllCompleted(steps[..i])
                                     && r.message == MessageOr(steps[i].reason, DefaultInitError)
  {
    var cs := StepChecks(steps);
    match FirstFailure(cs)
    case Pass => Loaded
    case Fail(m) =>
      var i :| FirstFailingAt(cs, i) && m == cs[i].message;
      assert forall j :: 0 <= j < i ==> cs[..i][j].passes;
      Failed(m)
  }

  /** The first step that throws decides the reported message. */
  lemma ReportAt(steps: seq<StepResult>, i: int)
    requires 0 <= i < |steps| && steps[i].Threw? && AllCompleted(steps[..i])
    ensures Report(steps) == Failed(MessageOr(steps[i].reason, DefaultInitError))
  {
  }

  /** The state the effect leaves behind. */
  datatype EffectRun = EffectRun(
    started: bool,                 // the effect got past its guard
    report: Option<InitReport>,    // the callback it invoked, if any
    sceneInitialized: bool,        // `sceneInitialized.current`
    addedResizeListener: bool      // this run added a `resize` listener to `window`
  )

  /** The effect body. `beforeListener` are the steps up to `addEventListener('resize')`
      (readiness poll, THREEx check, renderer and AR source creation, source and context
      set-up, scene construction), `afterListener` the first resize and first animation
      frame, which may still throw. */
  function RunEffect(containerPresent: bool, sceneInitialized: bool,
                     beforeListener: seq<StepResult>, afterListener: seq<StepResult>): (run: EffectRun)
  {
    if !containerPresent || sceneInitialized then
      EffectRun(false, None, sceneInitialized, false)
    else
      var r := Report(beforeListener + afterListener);
      EffectRun(true, Some(r), r.Loaded?, AllCompleted(beforeListener))
  }

  /** The effect does nothing once the scene is initialised or while there is no container;
      otherwise it reports exactly once, `onLoad` precisely when every step completed, and
      sets `sceneInitialized` only together with `onLoad`. Every `onError` message is
      non-empty. */
  lemma EffectReports(containerPresent: bool, sceneInitialized: bool,
                      before: seq<StepResult>, after: seq<StepResult>)
    ensures var run := RunEffect(containerPresent, sceneInitialized, before, after);
      && (run.started <==> containerPresent && !sceneInitialized)
      && (!run.started ==> run.report == None && run.sceneInitialized == sceneInitialized)
      && (run.started ==> run.report.Some?)
      && (run.started ==> (run.report == Some(Loaded) <==> AllCompleted(before) && AllCompleted(after)))
      && (run.started ==> (run.sceneInitialized <==> run.report == Some(Loaded)))
      && (run.report.Some? && run.report.value.Failed? ==> Truthy(run.report.value.message))
  {
    if containerPresent && !sceneInitialized {
      var all := before + after;
      assert AllCompleted(all) <==> AllCompleted(before) && AllCompleted(after) by {
        if AllCompleted(before) && AllCompleted(after) {
          forall i | 0 <= i < |all| ensures all[i].Completed? {
            if i >= |before| { assert all[i] == after[i - |before|]; }
          }
        }
        if AllCompleted(all) {
          forall i | 0 <= i < |before| ensures before[i].Completed? {
            assert all[i] == before[i];
          }
          forall i | 0 <= i < |after| ensures after[i].Completed? {
            assert all[|before| + i] == after[i];
          }
        }
      }
    }
  }

  /** What an effect callback hands back to React: nothing, or the closure that removes
      the `resize` listener and disposes the scene. */
  datatype Cleanup = NoCleanup | RemovesListener

  /** The value `initAR`'s promise resolves to: the closure is returned only from the end of
      the `try`, after `onLoad()`; the `catch` yields nothing, and after the effect's guard
      returned early `initAR` never ran. */
  function InitArValue(run: EffectRun): (c: Cleanup)
    ensures c == RemovesListener <==> run.started && run.report == Some(Loaded)
  {
    if run.started && run.report == Some(Loaded) then RemovesListener else NoCleanup
  }

  /** The effect callback's own return value. With the bare statement `initAR();` as its
      last line it returns `undefined`, whatever `initAR` resolves to. `handsOverClosure`
      stands for the evident repair: keep the closure `initAR` resolves to in a ref and
      return a synchronous cleanup that calls it. Returning `initAR()` itself would hand
      React a promise, not a cleanup. */
  function EffectValue(handsOverClosure: bool, run: EffectRun): (c: Cleanup)
    ensures !handsOverClosure ==> c == NoCleanup
    ensures handsOverClosure ==> c == InitArValue(run)
  {
    if handsOverClosure then InitArValue(run) else NoCleanup
  }

  /** Across every way the effect can run: `initAR` produces the closure exactly when the
      effect passed its guard and every step completed; as written the callback still hands
      React nothing; handing the closure over would give React exactly that closure. */
  lemma CleanupReachesReact(containerPresent: bool, sceneInitialized: bool,
                            before: seq<StepResult>, after: seq<StepResult>)
    ensures var run := RunEffect(containerPresent, sceneInitialized, before, after);
      && (InitArValue(run) == RemovesListener <==>
            containerPresent && !sceneInitialized && AllCompleted(before) && AllCompleted(after))
      && EffectValue(false, run) == NoCleanup
      && (EffectValue(true, run) == RemovesListener <==> InitArValue(run) == RemovesListener)
  {
    EffectReports(containerPresent, sceneInitialized, before, after);
  }

  /** React on unmount runs the cleanup the effect callback returned, if any. */
  function ReactUnmount(run: EffectRun, c: Cleanup): (after: EffectRun)
    ensures after.addedResizeListener <==> run.addedResizeListener && c == NoCleanup
    ensures after.started == run.started && after.report == run.report
    ensures after.sceneInitialized == run.sceneInitialized
  {
    match c
    case NoCleanup => run
    case RemovesListener => run.(addedResizeListener := false)
  }

  /** Unmounting AS WRITTEN: the effect ends with `initAR();`, so React receives no
      cleanup. */
  function UnmountAsWritten(run: EffectRun): (after: EffectRun)
    ensures after.addedResizeListener == run.addedResizeListener
  {
    ReactUnmount(run, EffectValue(false, run))
  }

  /** A fully successful mount followed by an unmount leaves the `resize` listener on
      `window`, pointing at a torn-down scene. */
  lemma ListenerLeaksAsWritten()
    ensures RunEffect(true, false, [], []).report == Some(Loaded)
    ensures UnmountAsWritten(RunEffect(true, false, [], [])).addedResizeListener
  {
  }

  /** What the authors evidently intended: the closure `initAR` resolves to reaches React
      through a ref and a synchronous cleanup. The listener is then removed after every
      successful load; only a run that failed after adding it (in the first resize or first
      frame) still leaves it behind, since its `catch` returns nothing. */
  function Unmount(run: EffectRun): (after: EffectRun)
    ensures after.addedResizeListener <==> run.addedResizeListener && !(run.started && run.report == Some(Loaded))
    ensures after.report == run.report && after.sceneInitialized == run.sceneInitialized
  {
    ReactUnmount(run, EffectValue(true, run))
  }

  /** With the cleanup handed to React, no mount that reported `onLoad` leaves a listener
      after unmounting, and a listener survives exactly when a step after
      `addEventListener` threw. */
  lemma NoListenerAfterUnmount(containerPresent: bool, sceneInitialized: bool,
                               before: seq<StepResult>, after: seq<StepResult>)
    ensures var run := RunEffect(containerPresent, sceneInitialized, before, after);
      && (run.report == Some(Loaded) ==> !Unmount(run).addedResizeListener)
      && (Unmount(run).addedResizeListener <==>
            containerPresent && !sceneInitialized && AllCompleted(before) && !AllCompleted(after))
  {
    EffectReports(containerPresent, sceneInitialized, before, after);
  }
}

=== FILE: scene_objects_layout.dfy ===
/** The layout of the A-Frame scene-objects example: four ordered device checks, then a
    camera probe whose tracks are released at once; the page content renders only while no
    error is shown. */
module SceneObjectsLayout {
  import opened Wrappers
  import opened Js
  import opened Gate
  import opened Environment

  const NoCameraError := "您的设备不支持摄像头访问，无法使用此功能"
  const HttpsError := "此功能需要在 HTTPS 环境下使用"
  const CameraDeniedError := "无法访问摄像头，请确保已授予摄像头访问权限"

  function DeviceChecks(env: Env): seq<Check>
  {
    [Check(!(IsIOS(env) && !HasSafari(env)), IosNeedsSafari),
     Check(!(IsAndroid(env) && !HasChrome(env)), AndroidNeedsChrome),
     Check(env.hasMediaDevices, NoCameraError),
     Check(IsSecureContext(env), HttpsError)]
  }

  /** `checkDeviceCompatibility` up to the camera request. */
  function CheckDevice(env: Env): (r: Outcome)
    ensures r.Pass? <==> !(IsIOS(env) && !HasSafari(env)) && !(IsAndroid(env) && !HasChrome(env))
                         && env.hasMediaDevices && IsSecureContext(env)
  {
    var cs := DeviceChecks(env);
    assert AllPass(cs) <==> cs[0].passes && cs[1].passes && cs[2].passes && cs[3].passes;
    FirstFailure(cs)
  }

  /** The checks run in the fixed order iOS-Safari, Android-Chrome, media devices, secure
      context, and the first failing one alone decides the message. */
  lemma CheckOrder(env: Env)
    ensures IsIOS(env) && !HasSafari(env) ==> CheckDevice(env) == Fail(IosNeedsSafari)
    ensures !(IsIOS(env) && !HasSafari(env)) && IsAndroid(env) && !HasChrome(env)
            ==> CheckDevice(env) == Fail(AndroidNeedsChrome)
    ensures !(IsIOS(env) && !HasSafari(env)) && !(IsAndroid(env) && !HasChrome(env)) && !env.hasMediaDevices
            ==> CheckDevice(env) == Fail(NoCameraError)
    ensures (!(IsIOS(env) && !HasSafari(env)) && !(IsAndroid(env) && !HasChrome(env)) && env.hasMediaDevices
             && !IsSecureContext(env)) ==> CheckDevice(env) == Fail(HttpsError)
  {
    var cs := DeviceChecks(env);
    if !cs[0].passes {
      FirstFailureAt(cs, 0);
    } else if !cs[1].passes {
      assert cs[..1] == [cs[0]];
      FirstFailureAt(cs, 1);
    } else if !cs[2].passes {
      assert cs[..2] == [cs[0], cs[1]];
      FirstFailureAt(cs, 2);
    } else if !cs[3].passes {
      assert cs[..3] == [cs[0], cs[1], cs[2]];
      FirstFailureAt(cs, 3);
    }
  }

  /** The page accepts plain HTTP only on `localhost`. */
  lemma SecureContextExactly(env: Env)
    requires !(IsIOS(env) && !HasSafari(env)) && !(IsAndroid(env) && !HasChrome(env)) && env.hasMediaDevices
    ensures CheckDevice(env).Pass? <==> env.protocol == "https:" || env.hostname == "localhost"
  {
  }

  /** A media track: `live` until `stop()` is called on it. */
  datatype Track = Track(id: nat, live: bool)

  /** `stream.getTracks().forEach(track => track.stop())` */
  function StopAll(tracks: seq<Track>): (r: seq<Track>)
    ensures |r| == |tracks|
    ensures forall i :: 0 <= i < |r| ==> r[i].id == tracks[i].id && !r[i].live
  {
    if |tracks| == 0 then [] else [tracks[0].(live := false)] + StopAll(tracks[1..])
  }

  /** How `getUserMedia` settles. */
  datatype CameraOutcome = Granted(tracks: seq<Track>) | Rejected(reason: Thrown)

  /** Where the camera probe stands: never requested, waiting on the permission prompt, or
      settled. */
  datatype Probe = NotRequested | Pending | Settled

  /** The layout's state; `tracks` are the probe's tracks after the handler ran. */
  datatype Layout = Layout(isClient: bool, error: Option<string>, probe: Probe, tracks: seq<Track>)

  const Initial := Layout(false, None, NotRequested, [])

  /** The mount effect: `setIsClient(true)`, the checks, and the camera request, which is
      left pending; nothing waits for it. */
  function Mount(env: Env): Layout
  {
    match CheckDevice(env)
    case Fail(m) => Layout(true, Some(m), NotRequested, [])
    case Pass => Layout(true, None, Pending, [])
  }

  /** The probe's `then` (stop every track, `setError(null)`) or `catch` (the camera
      message); a promise settles once, so only a pending probe reacts. */
  function CameraSettled(l: Layout, camera: CameraOutcome): (r: Layout)
    ensures l.probe.Pending? ==> r.probe == Settled && r.isClient == l.isClient
    ensures !l.probe.Pending? ==> r == l
  {
    if !l.probe.Pending? then l
    else
      match camera
      case Granted(ts) => l.(error := None, probe := Settled, tracks := StopAll(ts))
      case Rejected(_) => l.(error := Some(CameraDeniedError), probe := Settled)
  }

  /** `error && …`: a dialog shows for a non-empty message. */
  predicate ShowsDialog(l: Layout)
  {
    l.error.Some? && Truthy(l.error.value)
  }

  /** `isClient && !error && …`: the children and the orientation hint. */
  predicate ShowsContent(l: Layout)
  {
    l.isClient && !ShowsDialog(l)
  }

  /** The close button: `setError(null)`. */
  function CloseDialog(l: Layout): Layout
  {
    l.(error := None)
  }

  /** The camera is requested exactly when all four checks pass; a granted probe leaves
      every acquired track stopped and no error, a rejected one the camera message; a failed
      check sets its own message and no probe outcome ever arrives. */
  lemma CameraProbe(env: Env, camera: CameraOutcome)
    ensures Mount(env).probe.Pending? <==> CheckDevice(env).Pass?
    ensures CheckDevice(env).Pass? && camera.Granted? ==>
              var s := CameraSettled(Mount(env), camera);
              s.error == None && |s.tracks| == |camera.tracks|
              && forall i :: 0 <= i < |camera.tracks| ==> !s.tracks[i].live
    ensures CheckDevice(env).Pass? && camera.Rejected? ==>
              CameraSettled(Mount(env), camera).error == Some(CameraDeniedError)
    ensures CheckDevice(env).Fail? ==>
              Mount(env).error == Some(CheckDevice(env).message)
              && CameraSettled(Mount(env), camera) == Mount(env)
  {
  }

  /** A settled probe ignores any later outcome. */
  lemma SettlesOnce(l: Layout, first: CameraOutcome, second: CameraOutcome)
    ensures CameraSettled(CameraSettled(l, first), second) == CameraSettled(l, first)
  {
  }

  /** Before the effect nothing renders. Right after it the content renders iff every check
      passed, so it is up while the permission prompt is still open; once the probe settles
      it stays up iff the camera was granted, and a rejection withdraws content already
      shown in favour of the dialog. Content and dialog never show together. */
  lemma ContentGating(env: Env, camera: CameraOutcome)
    ensures !ShowsContent(Initial) && !ShowsDialog(Initial)
    ensures ShowsContent(Mount(env)) <==> CheckDevice(env).Pass?
    ensures ShowsContent(CameraSettled(Mount(env), camera)) <==> CheckDevice(env).Pass? && camera.Granted?
    ensures ShowsContent(Mount(env)) && camera.Rejected? ==>
              !ShowsContent(CameraSettled(Mount(env), camera)) && ShowsDialog(CameraSettled(Mount(env), camera))
    ensures ShowsContent(Mount(env)) != ShowsDialog(Mount(env))
    ensures ShowsContent(CameraSettled(Mount(env), camera)) != ShowsDialog(CameraSettled(Mount(env), camera))
  {
  }

  /** Closing the dialog clears the error, which brings the content back on the client. */
  lemma CloseShowsContent(l: Layout)
    requires l.isClient
    ensures CloseDialog(l).error == None
    ensures ShowsContent(CloseDialog(l)) && !ShowsDialog(CloseDialog(l))
  {
  }
}

=== FILE: text.dfy ===
/** Substring search and ASCII case folding: the model of `String.prototype.includes`
    and of the literal, unanchored regular expressions (`/Android/`, `/Chrome/i`) the
    components test user-agent strings with. */
module Text {

  /** `sub` occurs in `s` at index `i`. */
  predicate OccursAt(s: string, sub: string, i: int)
  {
    0 <= i && i + |sub| <= |s| && s[i..i + |sub|] == sub
  }

  /** Reference meaning of `s.includes(sub)` and of `/sub/.test(s)`. */
  predicate Contains(s: string, sub: string)
  {
    exists i | 0 <= i <= |s| - |sub| :: OccursAt(s, sub, i)
  }

  /** Scans `s` left to right, as `includes` does, comparing one window per position. */
  method Includes(s: string, sub: string) returns (found: bool)
    ensures found <==> Contains(s, sub)
  {
    if |sub| > |s| {
      return false;
    }
    var i := 0;
    while i <= |s| - |sub|
      invariant 0 <= i <= |s| - |sub| + 1
      invariant forall j :: 0 <= j < i ==> !OccursAt(s, sub, j)
    {
      if s[i..i + |sub|] == sub {
        assert OccursAt(s, sub, i);
        return true;
      }
      i := i + 1;
    }
    return false;
  }

  /** The case folding a regular expression with the `i` flag applies to ASCII letters. */
  function Lower(c: char): (d: char)
  {
    if 'A' <= c <= 'Z' then (c as int + 32) as char else c
  }

  function LowerAll(s: string): (r: string)
    ensures |r| == |s|
    ensures forall i :: 0 <= i < |s| ==> r[i] == Lower(s[i])
  {
    seq(|s|, i requires 0 <= i < |s| => Lower(s[i]))
  }

  /** `/sub/i.test(s)` for an ASCII pattern. */
  predicate ContainsIgnoringCase(s: string, sub: string)
  {
    Contains(LowerAll(s), LowerAll(sub))
  }

  /** The canonicalisation a non-unicode regular expression with the `i` flag applies to
      both sides of every character comparison: ASCII letters go to upper case. Other
      characters are left as they are here; the engine may map a non-ASCII letter to
      another non-ASCII one, but never to a character below 128, so comparisons against an
      ASCII pattern come out the same. */
  function Canonicalize(c: char): (d: char)
  {
    if 'a' <= c <= 'z' then (c as int - 32) as char else c
  }

  /** The regular expression's own matching rule at offset `i`: every pattern character
      equals the subject character after canonicalising both. */
  predicate MatchesAtIgnoringCase(s: string, sub: string, i: int)
  {
    0 <= i && i + |sub| <= |s|
    && forall k :: 0 <= k < |sub| ==> Canonicalize(s[i + k]) == Canonicalize(sub[k])
  }

  /** `/sub/i.test(s)` as the regular expression engine decides it. */
  predicate RegexTestIgnoringCase(s: string, sub: string)
  {
    exists i | 0 <= i <= |s| - |sub| :: MatchesAtIgnoringCase(s, sub, i)
  }

  /** Lower-case folding and upper-case canonicalisation identify the same characters. */
  lemma FoldingAgrees(a: char, b: char)
    ensures Lower(a) == Lower(b) <==> Canonicalize(a) == Canonicalize(b)
  {
  }

  /** A folded window matches exactly where the regular expression matches. */
  lemma FoldedOccursAt(s: string, sub: string, i: int)
    requires 0 <= i && i + |sub| <= |s|
    ensures OccursAt(LowerAll(s), LowerAll(sub), i) <==> MatchesAtIgnoringCase(s, sub, i)
  {
    var w := LowerAll(s)[i..i + |sub|];
    forall k | 0 <= k < |sub|
      ensures w[k] == LowerAll(sub)[k] <==> Canonicalize(s[i + k]) == Canonicalize(sub[k])
    {
      FoldingAgrees(s[i + k], sub[k]);
    }
    if MatchesAtIgnoringCase(s, sub, i) {
      assert w == LowerAll(sub);
    }
  }

  /** Folding both strings and searching decides the `/sub/i` test. */
  lemma FoldingDecidesRegex(s: string, sub: string)
    ensures ContainsIgnoringCase(s, sub) <==> RegexTestIgnoringCase(s, sub)
  {
    if ContainsIgnoringCase(s, sub) {
      var i :| 0 <= i <= |s| - |sub| && OccursAt(LowerAll(s), LowerAll(sub), i);
      FoldedOccursAt(s, sub, i);
    }
    if RegexTestIgnoringCase(s, sub) {
      var i :| 0 <= i <= |s| - |sub| && MatchesAtIgnoringCase(s, sub, i);
      FoldedOccursAt(s, sub, i);
    }
  }

  /** Folds both strings, then scans; the answer is the regular expression's. */
  method IncludesIgnoringCase(s: string, sub: string) returns (found: bool)
    ensures found <==> ContainsIgnoringCase(s, sub)
    ensures found <==> RegexTestIgnoringCase(s, sub)
  {
    found := Includes(LowerAll(s), LowerAll(sub));
    FoldingDecidesRegex(s, sub);
  }

  /** Folding commutes with taking a window. */
  lemma LowerAllSlice(s: string, i: int, j: int)
    requires 0 <= i <= j <= |s|
    ensures LowerAll(s)[i..j] == LowerAll(s[i..j])
  {
  }

  /** Every exact match is also a case-insensitive match: a user agent that `includes`
      a word passes the `/word/i` test too. */
  lemma ContainsImpliesIgnoringCase(s: string, sub: string)
    requires Contains(s, sub)
    ensures ContainsIgnoringCase(s, sub)
  {
    var i :| 0 <= i <= |s| - |sub| && OccursAt(s, sub, i);
    LowerAllSlice(s, i, i + |sub|);
    assert OccursAt(LowerAll(s), LowerAll(sub), i);
  }
}

=== FILE: three_ar_scene.dfy ===
/** `ARScene` in three-ar-scene.tsx: device-dependent parameters, a 20-sample readiness
    poll for `THREEx.ArToolkitSource`, and the initialisation report. */
module ThreeArScene {
  import opened Wrappers
  import opened Js
  import opened Poller
  import opened SceneInit
  import opened Environment

  const RenderError := "AR渲染出现问题，请刷新页面重试"

  /** `checkARJS()` awaited as the first step of `initAR`: `samples[k]` tells whether
      `THREEx.ArToolkitSource` is defined at the `k+1`-th check. */
  function CheckArjs(samples: seq<bool>): (s: StepResult)
    requires MaxAttempts <= |samples|
  {
    match Poll(samples, MaxAttempts)
    case Resolved(_) => Completed
    case Exhausted(_) => Threw(ErrorObject(ArjsUndefinedError))
  }

  /** The poll succeeds exactly when one of the first 20 samples sees the toolkit, and
      otherwise rejects with the THREEx-undefined error after exactly 20 samples. */
  lemma CheckArjsOutcome(samples: seq<bool>)
    requires MaxAttempts <= |samples|
    ensures CheckArjs(samples).Completed? <==> exists k :: 0 <= k < MaxAttempts && samples[k]
    ensures CheckArjs(samples).Threw? ==>
              CheckArjs(samples) == Threw(ErrorObject(ArjsUndefinedError)) && Poll(samples, MaxAttempts) == Exhausted(MaxAttempts)
  {
  }

  /** The options the component passes to three.js and AR.js, chosen by device class. */
  datatype SceneParams = SceneParams(
    fov: nat,                  // PerspectiveCamera field of view
    antialias: bool,           // WebGLRenderer
    maxDetectionRate: nat,     // ArToolkitContext
    patternRatio: real,
    imageSmoothingEnabled: bool,
    smoothCount: nat,          // ArMarkerControls
    smoothTolerance: real,
    smoothThreshold: nat
  )

  function ParamsFor(isMobile: bool): SceneParams
  {
    if isMobile then SceneParams(60, false, 30, 0.65, false, 3, 0.02, 3)
    else SceneParams(45, true, 60, 0.5, true, 5, 0.01, 2)
  }

  /** `setPixelRatio`: capped at 2 on mobile, the device ratio otherwise. */
  function PixelRatio(isMobile: bool, devicePixelRatio: real): (r: real)
    ensures isMobile ==> r <= 2.0 && r <= devicePixelRatio
    ensures isMobile && devicePixelRatio <= 2.0 ==> r == devicePixelRatio
    ensures isMobile && devicePixelRatio > 2.0 ==> r == 2.0
    ensures !isMobile ==> r == devicePixelRatio
  {
    if isMobile && devicePixelRatio > 2.0 then 2.0 else devicePixelRatio
  }

  /** Mobile trades accuracy for load: half the detection rate, fewer smoothing frames, a
      wider field of view, and no antialiasing or image smoothing; desktop is the reverse.
      The first two clauses pin every option the component passes. */
  lemma MobileParamsAreLighter()
    ensures ParamsFor(true) == SceneParams(60, false, 30, 0.65, false, 3, 0.02, 3)
    ensures ParamsFor(false) == SceneParams(45, true, 60, 0.5, true, 5, 0.01, 2)
    ensures ParamsFor(true).fov == 60 && ParamsFor(false).fov == 45
    ensures ParamsFor(true).maxDetectionRate * 2 == ParamsFor(false).maxDetectionRate
    ensures ParamsFor(true).smoothCount < ParamsFor(false).smoothCount
    ensures !ParamsFor(true).antialias && ParamsFor(false).antialias
    ensures ParamsFor(true).imageSmoothingEnabled == ParamsFor(true).antialias
    ensures ParamsFor(false).imageSmoothingEnabled == ParamsFor(false).antialias
  {
  }

  /** The effect's opening `getDeviceInfo()` call feeds every device-dependent option: the
      renderer and tracking options and the pixel ratio follow the user-agent classification,
      and a mobile device never renders above ratio 2. */
  method RendererSettings(env: Env, devicePixelRatio: real) returns (params: SceneParams, ratio: real)
    ensures params == ParamsFor(IsMobile(env)) && ratio == PixelRatio(IsMobile(env), devicePixelRatio)
    ensures IsMobile(env) ==> params.fov == 60 && !params.antialias && ratio <= 2.0
    ensures !IsMobile(env) ==> params.fov == 45 && params.antialias && ratio == devicePixelRatio
  {
    var info := GetDeviceInfo(env);
    params := ParamsFor(info.isMobile);
    ratio := PixelRatio(info.isMobile, devicePixelRatio);
  }

  /** The environment's answers to every step of `initAR`. */
  datatype InitInputs = InitInputs(
    samples: seq<bool>,           // readiness samples, one per check
    threexAfterPoll: bool,        // `window.THREEx` still defined after the poll
    setup: StepResult,            // scene, camera and `WebGLRenderer` creation, then `new ArToolkitSource`
    sourceInit: Option<Thrown>,   // what `arToolkitSource.init` threw, if anything
    construction: StepResult,     // context, marker controls and mesh construction
    firstResize: StepResult,      // the `onResize()` call after the listener is added
    sourceReady: bool,            // `arToolkitSource.ready === true` at the first frame
    firstFrame: StepResult        // the first frame's update and render
  )

  function BeforeListener(inp: InitInputs): seq<StepResult>
    requires MaxAttempts <= |inp.samples|
  {
    [CheckArjs(inp.samples),
     if inp.threexAfterPoll then Completed else Threw(ErrorObject(ThreexMissingError)),
     inp.setup,
     SourceInitStep(inp.sourceInit),
     inp.construction]
  }

  /** The effect and the callbacks it invokes, in order. */
  datatype Mounted = Mounted(run: EffectRun, calls: seq<InitReport>)

  /** `animate()` catches render errors itself: a failing first frame calls
      `onError(RenderError)` and `initAR` then goes on to call `onLoad()`. */
  function Mount(containerPresent: bool, sceneInitialized: bool, inp: InitInputs): (m: Mounted)
    requires MaxAttempts <= |inp.samples|
  {
    var run := RunEffect(containerPresent, sceneInitialized, BeforeListener(inp), [inp.firstResize]);
    var frameError := if inp.sourceReady && inp.firstFrame.Threw? then [Failed(RenderError)] else [];
    var calls := if !run.started then []
                 else if run.report == Some(Loaded) then frameError + [Loaded]
                 else [run.report.value];
    Mounted(run, calls)
  }

  /** `onLoad` is the last callback and is called, with `sceneInitialized` set, exactly when
      the poll resolved, THREEx was present, the renderer and source were created, the source
      initialised and construction and the first resize completed; a failed poll reports the THREEx-undefined error; a source that
      throws a non-`Error` value reports the prefix followed by `undefined`. */
  lemma MountReports(containerPresent: bool, sceneInitialized: bool, inp: InitInputs)
    requires MaxAttempts <= |inp.samples|
    requires containerPresent && !sceneInitialized
    ensures var m := Mount(containerPresent, sceneInitialized, inp);
      && |m.calls| >= 1
      && (m.calls[|m.calls| - 1] == Loaded <==>
            (exists k :: 0 <= k < MaxAttempts && inp.samples[k]) && inp.threexAfterPoll
            && inp.setup.Completed? && inp.sourceInit.None? && inp.construction.Completed?
            && inp.firstResize.Completed?)
      && (m.run.sceneInitialized <==> m.calls[|m.calls| - 1] == Loaded)
      && (!(exists k :: 0 <= k < MaxAttempts && inp.samples[k]) ==> m.calls == [Failed(ArjsUndefinedError)])
      && (((exists k :: 0 <= k < MaxAttempts && inp.samples[k]) && inp.threexAfterPoll && inp.setup.Completed?
           && inp.sourceInit == Some(OtherValue))
            ==> m.calls == [Failed(SourceInitPrefix + "undefined")])
  {
    CheckArjsOutcome(inp.samples);
    var before := BeforeListener(inp);
    EffectReports(containerPresent, sceneInitialized, before, [inp.firstResize]);
    var all := before + [inp.firstResize];
    assert AllCompleted(before) <==>
      before[0].Completed? && before[1].Completed? && before[2].Completed? && before[3].Completed?
      && before[4].Completed?;
    assert [inp.firstResize][0] == inp.firstResize;
    assert AllCompleted([inp.firstResize]) <==> inp.firstResize.Completed?;
    if !(exists k :: 0 <= k < MaxAttempts && inp.samples[k]) {
      ReportAt(all, 0);
    }
    if (exists k :: 0 <= k < MaxAttempts && inp.samples[k]) && inp.threexAfterPoll && inp.setup.Completed?
       && inp.sourceInit == Some(OtherValue) {
      assert all[..3] == [Completed, Completed, Completed];
      ReportAt(all, 3);
    }
  }

  /** A broken first frame on a ready source makes the component report an error and then
      success: the parent sees `onError` followed by `onLoad`. */
  lemma FrameErrorThenLoad(inp: InitInputs)
    requires MaxAttempts <= |inp.samples|
    requires Mount(true, false, inp).run.report == Some(Loaded)
    requires inp.sourceReady && inp.firstFrame.Threw?
    ensures Mount(true, false, inp).calls == [Failed(RenderError), Loaded]
  {
  }

  /** Re-running the effect after a successful mount does nothing: no poll, no callback. */
  lemma InitializedSceneIsInert(inp: InitInputs, inp2: InitInputs)
    requires MaxAttempts <= |inp.samples| && MaxAttempts <= |inp2.samples|
    requires Mount(true, false, inp).run.sceneInitialized
    ensures Mount(true, Mount(true, false, inp).run.sceneInitialized, inp2).calls == []
  {
  }
}

=== FILE: tryon_page.dfy ===
/** The MindAR face try-on page: five accessory flags, each toggled by its own button, with
    the button's `selected` class and the entities' `visible` attribute mirroring the flag;
    and the interval that waits for A-Frame and MindAR before wiring the buttons. */
module TryOnPage {
  import opened Js

  const ItemCount: nat := 5
  const InitialVisibles: seq<bool> := [true, false, false, true, true]
  /** The `visible` attributes the markup gives each item's entities before any script runs. */
  const MarkupVisible: seq<string> := ["true", "false", "true", "false", "true"]

  /** What `querySelector('#item')` and `querySelectorAll('.item-entity')` find, per item. */
  datatype Dom = Dom(buttonFound: seq<bool>, entityCount: seq<nat>)

  predicate ValidDom(d: Dom)
  {
    |d.buttonFound| == ItemCount && |d.entityCount| == ItemCount
  }

  /** Per item: whether its button has the `selected` class, and its entities' `visible`
      attributes. */
  datatype View = View(selected: seq<bool>, entityVisible: seq<seq<string>>)

  /** The page's state: the script's `visibles` array, which buttons got a click listener,
      and the DOM view. */
  datatype TryOn = TryOn(visibles: seq<bool>, bound: seq<bool>, view: View)

  predicate Valid(t: TryOn)
  {
    |t.visibles| == ItemCount && |t.bound| == ItemCount
    && |t.view.selected| == ItemCount && |t.view.entityVisible| == ItemCount
  }

  function Fill(n: nat, s: string): (r: seq<string>)
    ensures |r| == n && forall k :: 0 <= k < n ==> r[k] == s
  {
    seq(n, _ => s)
  }

  /** The page before `initializeEvents`: no button selected, entities as in the markup. */
  function MarkupView(d: Dom): View
    requires ValidDom(d)
  {
    View(seq(ItemCount, _ => false),
         seq(ItemCount, i requires 0 <= i < ItemCount => Fill(d.entityCount[i], MarkupVisible[i])))
  }

  /** Item `i` of the view shows flag `b`. */
  predicate ShowsFlag(v: View, i: nat, b: bool)
    requires i < |v.selected| && i < |v.entityVisible|
  {
    v.selected[i] == b && forall k :: 0 <= k < |v.entityVisible[i]| ==> v.entityVisible[i][k] == BoolText(b)
  }

  /** `setVisible(button, entities, visible)` for item `i`. */
  function SetVisible(v: View, i: nat, visible: bool): (r: View)
    requires i < |v.selected| && i < |v.entityVisible|
    ensures |r.selected| == |v.selected| && |r.entityVisible| == |v.entityVisible|
    ensures ShowsFlag(r, i, visible) && |r.entityVisible[i]| == |v.entityVisible[i]|
    ensures forall j :: 0 <= j < |v.selected| && j != i ==> r.selected[j] == v.selected[j]
    ensures forall j :: 0 <= j < |v.entityVisible| && j != i ==> r.entityVisible[j] == v.entityVisible[j]
  {
    View(v.selected[i := visible], v.entityVisible[i := Fill(|v.entityVisible[i]|, BoolText(visible))])
  }

  /** Every item with a listener shows its flag. */
  predicate Mirrors(t: TryOn)
    requires Valid(t)
  {
    forall i :: 0 <= i < ItemCount && t.bound[i] ==> ShowsFlag(t.view, i, t.visibles[i])
  }

  /** `initializeEvents`: for each item whose button exists, show its initial flag and bind
      a click listener; items without a button are skipped. */
  method InitializeEvents(d: Dom) returns (t: TryOn)
    requires ValidDom(d)
    ensures Valid(t) && Mirrors(t)
    ensures t.visibles == InitialVisibles && t.bound == d.buttonFound
    ensures forall i :: 0 <= i < ItemCount ==> |t.view.entityVisible[i]| == d.entityCount[i]
    ensures forall i :: 0 <= i < ItemCount && !d.buttonFound[i] ==>
              t.view.selected[i] == MarkupView(d).selected[i] && t.view.entityVisible[i] == MarkupView(d).entityVisible[i]
  {
    var view := MarkupView(d);
    var i := 0;
    while i < ItemCount
      invariant 0 <= i <= ItemCount
      invariant |view.selected| == ItemCount && |view.entityVisible| == ItemCount
      invariant forall j :: 0 <= j < ItemCount ==> |view.entityVisible[j]| == d.entityCount[j]
      invariant forall j :: 0 <= j < i && d.buttonFound[j] ==> ShowsFlag(view, j, InitialVisibles[j])
      invariant forall j :: 0 <= j < ItemCount && (i <= j || !d.buttonFound[j]) ==>
                  view.selected[j] == MarkupView(d).selected[j] && view.entityVisible[j] == MarkupView(d).entityVisible[j]
    {
      if d.buttonFound[i] {
        view := SetVisible(view, i, InitialVisibles[i]);
      }
      i := i + 1;
    }
    t := TryOn(InitialVisibles, d.buttonFound, view);
  }

  /** A click on item `i`'s button: flip its flag and show it. Without a listener nothing
      happens. */
  function Click(t: TryOn, i: nat): (r: TryOn)
    requires Valid(t) && i < ItemCount
    ensures Valid(r)
  {
    if t.bound[i] then
      var flag := !t.visibles[i];
      TryOn(t.visibles[i := flag], t.bound, SetVisible(t.view, i, flag))
    else t
  }

  /** A click flips only its own flag; every other item's flag, button and entities are
      unchanged, and the clicked item shows its new flag. */
  lemma ClickFlipsOnlyItsItem(t: TryOn, i: nat)
    requires Valid(t) && i < ItemCount
    ensures Click(t, i).visibles[i] == (if t.bound[i] then !t.visibles[i] else t.visibles[i])
    ensures t.bound[i] ==> ShowsFlag(Click(t, i).view, i, Click(t, i).visibles[i])
    ensures forall j :: 0 <= j < ItemCount && j != i ==>
              Click(t, i).visibles[j] == t.visibles[j]
              && Click(t, i).view.selected[j] == t.view.selected[j]
              && Click(t, i).view.entityVisible[j] == t.view.entityVisible[j]
    ensures Click(t, i).bound == t.bound
  {
  }

  /** Clicking the same item twice restores the page. */
  lemma ClickTwiceRestores(t: TryOn, i: nat)
    requires Valid(t) && Mirrors(t) && i < ItemCount
    ensures Click(Click(t, i), i) == t
  {
    if t.bound[i] {
      var t2 := Click(Click(t, i), i);
      assert t2.visibles == t.visibles;
      assert t2.view.selected == t.view.selected;
      assert t2.view.entityVisible[i] == t.view.entityVisible[i];
      assert t2.view.entityVisible == t.view.entityVisible;
    }
  }

  function Clicks(t: TryOn, items: seq<nat>): (r: TryOn)
    requires Valid(t)
    requires forall k :: 0 <= k < |items| ==> items[k] < ItemCount
    ensures Valid(r)
    decreases |items|
  {
    if |items| == 0 then t else Clicks(Click(t, items[0]), items[1..])
  }

  lemma ClickKeepsMirror(t: TryOn, i: nat)
    requires Valid(t) && Mirrors(t) && i < ItemCount
    ensures Mirrors(Click(t, i))
  {
  }

  /** After any sequence of clicks every bound button is `selected` exactly when its flag is
      set and its entities' `visible` attribute spells the flag; unbound items never change. */
  lemma {:induction false} ClicksKeepMirror(t: TryOn, items: seq<nat>)
    requires Valid(t) && Mirrors(t)
    requires forall k :: 0 <= k < |items| ==> items[k] < ItemCount
    ensures Mirrors(Clicks(t, items))
    ensures forall j :: 0 <= j < ItemCount && !t.bound[j] ==>
              Clicks(t, items).visibles[j] == t.visibles[j]
              && Clicks(t, items).view.selected[j] == t.view.selected[j]
              && Clicks(t, items).view.entityVisible[j] == t.view.entityVisible[j]
    decreases |items|
  {
    if |items| > 0 {
      ClickKeepsMirror(t, items[0]);
      ClickFlipsOnlyItsItem(t, items[0]);
      ClicksKeepMirror(Click(t, items[0]), items[1..]);
    }
  }

  /** The readiness interval and how many times it has run `initializeEvents`. */
  datatype Interval = Interval(active: bool, initCalls: nat)

  /** The effect installs the interval only once `isClient` is true. */
  function StartInterval(isClient: bool): Interval
  {
    Interval(isClient, 0)
  }

  /** One tick: when both `window.AFRAME` and `window.MINDAR` are defined, clear the interval
      and run `initializeEvents`. */
  function Tick(s: Interval, aframe: bool, mindar: bool): Interval
  {
    if s.active && aframe && mindar then Interval(false, s.initCalls + 1) else s
  }

  /** The effect's cleanup: `clearInterval`. */
  function Teardown(s: Interval): Interval
  {
    s.(active := false)
  }

  /** `ticks[k]` is what tick `k+1` observes of `AFRAME` and `MINDAR`. */
  function RunTicks(s: Interval, ticks: seq<(bool, bool)>): Interval
    decreases |ticks|
  {
    if |ticks| == 0 then s else RunTicks(Tick(s, ticks[0].0, ticks[0].1), ticks[1..])
  }

  predicate BothDefined(tick: (bool, bool))
  {
    tick.0 && tick.1
  }

  predicate SomeTickReady(ticks: seq<(bool, bool)>)
  {
    exists k :: 0 <= k < |ticks| && BothDefined(ticks[k])
  }

  lemma {:induction false} InactiveIsInert(s: Interval, ticks: seq<(bool, bool)>)
    requires !s.active
    ensures RunTicks(s, ticks) == s
    decreases |ticks|
  {
    if |ticks| > 0 {
      InactiveIsInert(s, ticks[1..]);
    }
  }

  /** From a fresh interval, `initializeEvents` has run once and the interval is cleared if
      some tick saw both globals, and otherwise nothing has happened yet: it never runs
      twice. */
  lemma {:induction false} RunsAtMostOnce(ticks: seq<(bool, bool)>)
    ensures RunTicks(Interval(true, 0), ticks) ==
              (if SomeTickReady(ticks) then Interval(false, 1) else Interval(true, 0))
    decreases |ticks|
  {
    if |ticks| > 0 {
      if BothDefined(ticks[0]) {
        InactiveIsInert(Interval(false, 1), ticks[1..]);
      } else {
        RunsAtMostOnce(ticks[1..]);
        if SomeTickReady(ticks[1..]) {
          var k :| 0 <= k < |ticks[1..]| && BothDefined(ticks[1..][k]);
          assert BothDefined(ticks[k + 1]);
        }
        if SomeTickReady(ticks) {
          var k :| 0 <= k < |ticks| && BothDefined(ticks[k]);
          assert k > 0 && BothDefined(ticks[1..][k - 1]);
        }
      }
    }
  }

  /** `initializeEvents` runs on the first tick that sees both globals, not before and
      never again. */
  lemma InitializesOnFirstReadyTick(ticks: seq<(bool, bool)>, k: nat)
    requires k < |ticks| && BothDefined(ticks[k])
    requires forall j :: 0 <= j < k ==> !BothDefined(ticks[j])
    ensures RunTicks(Interval(true, 0), ticks[..k]).initCalls == 0
    ensures RunTicks(Interval(true, 0), ticks[..k + 1]) == Interval(false, 1)
    ensures RunTicks(Interval(true, 0), ticks) == Interval(false, 1)
  {
    RunsAtMostOnce(ticks[..k]);
    RunsAtMostOnce(ticks[..k + 1]);
    RunsAtMostOnce(ticks);
    assert ticks[..k + 1][k] == ticks[k];
  }

  /** Before the client flag is set, and after teardown, ticks do nothing. */
  lemma NoTicksWithoutInterval(s: Interval, ticks: seq<(bool, bool)>)
    ensures RunTicks(StartInterval(false), ticks) == StartInterval(false)
    ensures RunTicks(Teardown(s), ticks) == Teardown(s)
  {
  }
}

=== FILE: wrappers.dfy ===
/** Small failure-compatible datatypes shared by the whole model. */
module Wrappers {

  /** A value that may be absent (a JavaScript `null` / `undefined`). */
  datatype Option<+T> = None | Some(value: T)

  /** The verdict of a gate: every check passed, or the message of the one that failed. */
  datatype Outcome = Pass | Fail(message: string)
}
